=== FILE: README.md ===
# Braintree::Util in Dafny

This is a model of `Braintree::Util`, the helper module of the Braintree Ruby client
library, together with proofs about it. The model covers:

- turning a nested parameter hash into a sorted, `&`-joined query string
  (`hash_to_query_string`, `url_encode`), and reading a query string back into a hash of
  symbols (`parse_query_string`);
- the key whitelist check that resources run before sending parameters (`verify_keys`,
  `_flatten_valid_keys`, `_flatten_hash_keys`);
- the mapping from an HTTP status code to the exception the gateway client raises
  (`raise_exception_for_status_code`);
- two small reshaping helpers (`extract_attribute_as_array`, `symbolize_keys`).

Modules, one per file:

| module | file | contents |
|---|---|---|
| `Wrappers` | wrappers.dfy | `Option`, `Result` |
| `Collections` | collections.dfy | `ConcatMap` and multiset facts about it |
| `Text` | text.dfy | Ruby string order, `Array#sort`, `Array#join`, `String#split` |
| `Numerals` | numerals.dfy | `Integer#to_s`, `String#to_i` |
| `RubyHash` | ruby_hash.dfy | keys, values and hashes, with `Hash#[]`, `Hash#[]=`, `Hash#delete`, and the bracketed names of nested leaves |
| `QueryString` | query_string.dfy | `hash_to_query_string`, `parse_query_string` and their round trip |
| `PercentCodec` | percent_codec.dfy | a concrete escape/unescape pair meeting the codec assumptions |
| `KeyPaths` | key_paths.dfy | `_flatten_hash_keys`, `_flatten_valid_keys`, `verify_keys` |
| `StatusCodes` | status_codes.dfy | `raise_exception_for_status_code` |
| `HashHelpers` | hash_helpers.dfy | `extract_attribute_as_array`, `symbolize_keys` |

The model follows Ruby 1.8. Three of its rules
matter here: the `to_s` of an Array or a Hash joins the elements' strings, `String#to_sym`
raises on the empty string and on text holding a NUL character, and a Hash has no defined
order.

How Ruby's pieces are represented:

- A Ruby `Hash` is the sequence of its entries in the order `each` visits them.
  - Lookup finds the first entry with the key.
  - `[]=` overwrites an existing entry in place, or adds a new one; the model adds it last.
  - `delete` removes the entry.
- A key is a `Str` or a `Sym` with a name; both print as the name.
- A value is one of `Nil`, `Scalar` (any other object, through its `to_s`), `List` (an
  Array) or `Hash`.
- A raised exception is the `Failure` side of a `Result`. A method that only raises,
  `raise_exception_for_status_code`, returns the error it would raise.
- `CGI.escape` and `CGI.unescape` are a `Codec` parameter: two function values.
  - The theorems about serialising and parsing assume `WellBehaved(c)`:
    - unescape undoes escape;
    - escaped text has no `&` or `=`;
    - the empty string escapes to itself.
  - `PercentCodec.PercentCodecWellBehaved` shows one concrete codec meets all three.

## Model

| member | source | states |
|---|---|---|
| QueryString.HashToQueryString | lib/braintree/util.rb:8-17 | `hash_to_query_string` itself. Its meaning is given by QueryFields and ExactQueryFields (the `&`-fields are the leaves' couplets), OrderIndependent (entry order does not matter), EmptyNestedHashOutput (an empty nested hash adds a leading `&`) and RoundTrip (parsing reads it back) |
| QueryString.QueryFields | lib/braintree/util.rb:8-17 | Split on `&`, the query string of any hash holds, apart from empty fields, exactly one couplet `escape(full key)=escape(value.to_s)` per leaf at any depth, as a multiset |
| QueryString.ExactQueryFields | lib/braintree/util.rb:8-17 | For a non-empty hash without empty nested hashes there are no empty fields: the `&`-fields are exactly the leaves' couplets, as a multiset |
| QueryString.OrderIndependent | lib/braintree/util.rb:9-16 | Reordering the entries of the hash, at any nesting depth, does not change the query string, because the pieces are sorted before joining |
| QueryString.CoupletHasNoAmpersand | lib/braintree/util.rb:14 | A couplet built from url-encoded parts contains no `&`, so joining with `&` keeps couplets apart |
| QueryString.EmptyNestedHashOutput | lib/braintree/util.rb:9-16 | In a hash of two or more entries, an entry holding an empty nested hash, at any position, adds an empty piece that sorts first: the text is `&` followed by what the other entries give |
| QueryString.Decouple | lib/braintree/util.rb:21-22 | `pair = couplet.split('=')` followed by the two `CGI.unescape` calls and `to_sym`; any key it returns can become a symbol. DecoupleReadsFirstPair states exactly when it succeeds and what it reads, and CoupletError states which error is raised when it does not |
| QueryString.DecoupleReadsFirstPair | lib/braintree/util.rb:21-22 | A couplet yields a key and a value exactly when some character other than `=` follows its first `=` and the unescaped text before that `=` can become a symbol: it is not empty and holds no NUL. The key is the unescaped text before the first `=`, the value the unescaped text between the first and the second `=` |
| QueryString.CoupletError | lib/braintree/util.rb:21-22 | A couplet that does not decode raises from `to_sym` (`BadKey`) exactly when it has a character other than `=` and its unescaped text before the first `=` is empty or holds a NUL; otherwise `CGI.unescape(nil)` raises (`NilPart`) |
| QueryString.DecoupleCouplet | lib/braintree/util.rb:14-22 | A couplet written for a leaf decodes to that leaf's full key and text exactly when the full key can become a symbol and the text is not empty, and to nothing otherwise |
| QueryString.LastFor | lib/braintree/util.rb:20-23 | Reference for the inject fold: the value of the last pair with key x, and None exactly when no pair has key x |
| QueryString.ParseSingleCouplet | lib/braintree/util.rb:14-25 | Parsing the couplet of one leaf gives the one-entry hash mapping the key's symbol to the text when the key can become a symbol and the text is not empty. Otherwise it raises from `to_sym` when the key cannot become a symbol and the key or the text is non-empty, and raises `CGI.unescape(nil)` in the remaining cases |
| QueryString.Inject | lib/braintree/util.rb:20-24 | The fold succeeds exactly when every couplet decodes: something other than `=` follows its first `=`, and its key unescapes to text that can become a symbol. The hash it builds has distinct keys, all symbols |
| QueryString.InjectLookup | lib/braintree/util.rb:20-24 | After the fold, each symbol maps to the value of the last couplet with that key, so a later duplicate overwrites an earlier one |
| QueryString.ParseQueryString | lib/braintree/util.rb:19-25 | Parsing succeeds exactly when every `&`-field decodes: it has a value after its first `=`, and its key unescapes to text that can become a symbol. The result has distinct symbol keys, and each maps to the last value given for its key |
| QueryString.LeadingEmptyCoupletFails | lib/braintree/util.rb:19-22 | A query string that starts with `&` and holds some other character has an empty first couplet, and parsing raises `CGI.unescape(nil)` on it |
| QueryString.OnlyAmpersandsParseEmpty | lib/braintree/util.rb:19-25 | A query string made only of `&` (the empty one included) splits into no couplets and parses to the empty hash |
| QueryString.SerialisedPairs | lib/braintree/util.rb:8-25 | For a non-empty hash without empty nested hashes whose leaves all have a full key that can become a symbol and a non-empty text: every couplet of its serialisation decodes, and the decoded pairs are the leaves' (full key, text) pairs up to order |
| QueryString.RoundTrip | lib/braintree/util.rb:8-25 | Under the conditions below, parsing what `hash_to_query_string` wrote succeeds, and every full key maps to the text of its leaf. The conditions: no empty nested hash; every leaf's full key can become a symbol (not empty, no NUL) and its text is non-empty; no full key shared by leaves with different text |
| QueryString.EmptyNestedHashBreaksParse | lib/braintree/util.rb:8-25 | As written, `{a: {}, b: v}` serialises to `&` followed by the couplet for b, and parsing that text raises |
| QueryString.Prune | lib/braintree/util.rb:11-12 | Removing the nested hashes that hold no leaf leaves no empty nested hash and keeps every leaf, under every namespace |
| QueryString.CompactHashToQueryString | lib/braintree/util.rb:8-17 | Corrected serialisation, skipping empty nested hashes: parsing its output succeeds and gives every full key its leaf's text, for any hash whose leaves have full keys that can become symbols and non-empty, consistent texts. CompactAgrees shows it writes the same text as `hash_to_query_string` whenever no nested hash is empty; CompactDropsEmptyHash and CompactSkipsEmptyHash show what it does with an empty one |
| QueryString.CompactAgrees | lib/braintree/util.rb:8-17 | For a hash without empty nested hashes, the corrected serialisation is exactly the text `hash_to_query_string` writes |
| QueryString.CompactDropsEmptyHash | lib/braintree/util.rb:11-12 | In the corrected serialisation, an entry holding an empty nested hash, at any position, contributes nothing: the text is that of the hash without the entry |
| QueryString.CompactSkipsEmptyHash | lib/braintree/util.rb:11-16 | The corrected serialisation of `{a: {}, b: v}` is the couplet for b alone, so `{a: {}, b: "1"}` gives `b=1` |
| PercentCodec.PercentCodecWellBehaved | lib/braintree/util.rb:27-29 | The assumptions made of `CGI.escape`/`CGI.unescape` are satisfiable: a `+`/`%XX` codec meets them all |
| PercentCodec.UnescapeEscape | lib/braintree/util.rb:27-29 | For that codec, unescaping the escaped text gives the text back |
| KeyPaths.FlattenHashKeys | lib/braintree/util.rb:82-92 | The result is sorted and, as a multiset, holds the bracketed name of every non-Hash value of the hash |
| KeyPaths.FlattenHashKeysCount | lib/braintree/util.rb:82-92 | There is one name per leaf |
| KeyPaths.EmptyHashAddsNoPath | lib/braintree/util.rb:85-86 | An entry holding an empty hash contributes no name |
| KeyPaths.FlattenHashKeysNamesLeaves | lib/braintree/util.rb:82-92 | A name is listed exactly when some key path leads to a non-Hash value and brackets to that name |
| KeyPaths.FlattenValidKeys | lib/braintree/util.rb:69-80 | Succeeds exactly when no whitelist Hash reached through first entries is empty; the result is then sorted and, as a multiset, equals the reference list of allowed names |
| KeyPaths.PlainKeyAllowed | lib/braintree/util.rb:76 | A plain whitelist key k is allowed as `n[k]` under namespace n, and as `k` at the top |
| KeyPaths.GroupUsesFirstEntry | lib/braintree/util.rb:71-74 | A whitelist Hash contributes through its first entry only: dropping its other entries changes nothing |
| KeyPaths.GroupEntryNamesAllowed | lib/braintree/util.rb:71-74 | Every name allowed under the first entry of a whitelist Hash, namespaced by that entry's key, is allowed by the whole whitelist |
| KeyPaths.MoreValidKeysAllowMore | lib/braintree/util.rb:69-80 | Extending the whitelist keeps every name it allowed |
| KeyPaths.Difference | lib/braintree/util.rb:62 | `Array#-` removes every occurrence of each name in the second list and keeps the others with their multiplicities |
| KeyPaths.ReportMeaning | lib/braintree/util.rb:62-66 | The final check passes exactly when every leaf name is allowed. Otherwise it raises ArgumentError, whose message is `invalid keys: ` followed by the offending names, sorted and joined by `, ` |
| KeyPaths.VerifyKeys | lib/braintree/util.rb:61-67 | Passes exactly when the whitelist is well formed and every leaf name of the hash is allowed. A malformed whitelist raises. Otherwise it raises ArgumentError listing every offending name, as often as it occurs, sorted and joined by `, ` |
| KeyPaths.AddingValidKeysKeepsPassing | lib/braintree/util.rb:61-80 | Adding well-formed keys to the whitelist never makes a passing hash fail |
| StatusCodes.RaiseExceptionForStatusCode | lib/braintree/util.rb:44-45 | `raise_exception_for_status_code` on a status given as text: the error chosen for the code `to_i` reads from it. StatusTextReadsCode and RadixStatusReadsCode state which error plain and `0d`-prefixed decimal text give |
| StatusCodes.ErrorForCode | lib/braintree/util.rb:44-59 | 401, 403, 404, 500 and 503 each raise their own error kind; every other code raises UnexpectedError. Its message is `Unexpected HTTP_RESPONSE ` followed by text that `to_i` reads back as the code |
| StatusCodes.StatusTextReadsCode | lib/braintree/util.rb:45 | A status given as the decimal text of a code raises the same error as the code itself |
| Numerals.ToI | lib/braintree/util.rb:45 | `String#to_i`: white space, an optional sign, an optional `0d`/`0D` prefix, then the longest run of digits (a single underscore may stand between two), and 0 when there are none. ToIOfDecimal and ToIOfRadixDecimal show it reads back plain and prefixed decimal text |
| Numerals.ToIOfDecimal | lib/braintree/util.rb:57 | `String#to_i` reads back what `Integer#to_s` wrote, negative codes included |
| Numerals.ToIOfRadixDecimal | lib/braintree/util.rb:45 | `String#to_i` skips a `0d` or `0D` radix prefix: the prefixed decimal text of n reads as n |
| StatusCodes.RadixStatusReadsCode | lib/braintree/util.rb:45-51 | A status written with the `0d` prefix raises the error of the code it spells, so `"0d404"` raises NotFoundError |
| Numerals.DecimalInjective | lib/braintree/util.rb:57 | Different codes give different message texts |
| RubyHash.ToS | lib/braintree/util.rb:28 | `to_s`, which `url_encode` applies to each value (called at line 14), as Ruby 1.8 defines it: nil prints empty, any other object (a `Scalar`) prints as its text, an Array or a Hash prints as its elements' strings one after the other |
| RubyHash.ListToSAppend | lib/braintree/util.rb:28 | The Ruby 1.8 join rule for Arrays: the text of two arrays concatenated is the two texts concatenated |
| HashHelpers.ExtractAttributeAsArray | lib/braintree/util.rb:3-6 | Returns an Array value unchanged, wraps any other value in a one-element array (`[nil]` when the attribute is absent), and deletes the attribute. Every other key keeps its value, and no other entry appears |
| HashHelpers.PuttingBackRestores | lib/braintree/util.rb:3-6 | Storing the removed value back under the attribute restores every lookup of the original hash |
| RubyHash.Delete | lib/braintree/util.rb:4 | `Hash#delete` keeps every other key's value. With distinct keys, it removes exactly the given key |
| RubyHash.Store | lib/braintree/util.rb:22 | `Hash#[]=` makes the key map to the value and leaves every other key unchanged. The keys become the old keys plus this one, and distinct keys stay distinct |
| HashHelpers.SymbolizeKeys | lib/braintree/util.rb:31-42 | The result when no key raises: it has distinct keys, and they are exactly the symbols of the names of the original keys |
| HashHelpers.SymbolizeKeysLookup | lib/braintree/util.rb:32-39 | Each symbol maps to the symbolized value of the last entry whose key has that name. Nested hashes, and arrays made only of hashes, are symbolized too |
| HashHelpers.SymbolizeKeysSymbolized | lib/braintree/util.rb:31-42 | The result is symbolized all the way down: symbol keys at every level of nested hashes and of arrays of hashes |
| HashHelpers.SymbolizedUnchanged | lib/braintree/util.rb:31-42 | A hash that is already symbolized all the way down is returned unchanged |
| HashHelpers.SymbolizeKeysIdempotent | lib/braintree/util.rb:31-42 | Symbolizing twice is the same as symbolizing once |
| HashHelpers.TrySymbolizeKeys | lib/braintree/util.rb:31-42 | `symbolize_keys` with `to_sym` allowed to raise. TrySymbolizeKeysReads states its result for every hash |
| HashHelpers.FirstRaising | lib/braintree/util.rb:34 | Reference for the raising order: no key in the list raises exactly when the result is None; otherwise the result is the name of the first key that raises |
| HashHelpers.TrySymbolizeKeysReads | lib/braintree/util.rb:31-42 | `symbolize_keys` with Ruby 1.8's `to_sym`: it raises on the first string key, in the order the keys are visited (each key before the hashes under it), whose text is empty or holds a NUL, naming that text; when no key raises it returns the result of `SymbolizeKeys` |
| HashHelpers.StringKeyRaises | lib/braintree/util.rb:34 | A string key whose text cannot become a symbol makes `symbolize_keys` raise with that text |
| HashHelpers.SymbolizedNeverRaises | lib/braintree/util.rb:31-42 | A hash already symbolized all the way down never raises and comes back unchanged |
| HashHelpers.TrySymbolizeKeysIdempotent | lib/braintree/util.rb:31-42 | When `symbolize_keys` succeeds, running it again on its result succeeds with the same hash |
| Text.SortedUnique | lib/braintree/util.rb:16 | Two sorted sequences holding the same strings are equal, so a sorted result does not depend on the order of its input |
| Text.SplitAtFirst | lib/braintree/util.rb:21 | `split('=')` has a first part exactly when the text has a character other than `=`, and it is the text before the first `=`; it has a second part exactly when such a character follows the first `=`, and it is the text up to the next `=` |
| Text.SplitOfJoin | lib/braintree/util.rb:16-20 | Splitting on a separator undoes joining with it, when no part contains the separator and the last part is not empty |

## Left out

- `CGI.escape` / `CGI.unescape` are not modelled character by character. They are the
  `Codec` parameter, and the theorems state what they rely on as `WellBehaved`.
- Ruby 1.9 and later differ from the Ruby 1.8 modelled here, and those differences are
  not modelled:
  - the `to_s` of an Array or a Hash is its `inspect` text, such as `["a", "b"]`, where
    the model joins the elements' strings with nothing between them;
  - `"".to_sym` returns the empty symbol, so a couplet `=x` stores `x` under it instead of
    raising the `BadKey` error the model gives; text holding a NUL becomes a symbol too;
  - a Hash keeps insertion order. The model's order is any iteration order, and its
    theorems about serialising and parsing hold for every order; it places new keys last.
- Objects other than Arrays and Hashes are `Scalar` values through their `to_s`.
- `parse_query_string` on a couplet with an empty value (`a=`) raises, because
  `split('=')` drops the trailing empty field. `QueryString.RoundTrip` therefore requires
  every leaf's text to be non-empty. Because `to_sym` raises on the empty string and on
  text holding a NUL, it also requires every full key to be neither.
- QueryString.RoundTrip: it does not claim a round trip for hashes whose different leaves
  share a full key with different texts. For example, the keys `"a"` and `:a` both print
  as `a`; parsing then keeps the value that sorts last.
- HashHelpers.SymbolizeKeys: models the result of `symbolize_keys` when no key raises, a
  fold that stores each value under its key's symbol. `TrySymbolizeKeys` adds the raising
  `to_sym`; on failure it returns only the error, not the partly rewritten hash the caller
  is left with. It does not model Ruby's behaviour when the
  hash is deleted from and added to while `each` is iterating over it.
- HashHelpers.SymbolizeKeys: when a string key and a symbol key share a name, the value
  of the later one wins, at the position of the earlier one.
- The source updates hashes in place (`delete`, `[]=`). The model returns new hashes
  instead, and `ExtractAttributeAsArray` returns the hash after deletion together with
  the array.
- KeyPaths.FlattenValidKeys: a whitelist Hash whose value is not an Array cannot be
  written in the model, because a `GroupEntry` always holds a whitelist. A whitelist Hash
  with no entries is the `EmptyGroup` error: `key.keys[0]` is nil and `nil.inject`
  raises.
- `raise_exception_for_status_code` takes the status either as an Integer
  (`ErrorForCode`) or as text (`RaiseExceptionForStatusCode`, read with `String#to_i`).
  `to_i` on other objects is not modelled, nor `to_i` with a base other than 10.
- Strings are sequences of characters. Ruby compares strings byte by byte in UTF-8,
  which orders code points the same way as comparing characters.
- Anything outside `lib/braintree/util.rb` is not modelled: the HTTP transport,
  certificate checks, logging and the resource classes.

## Findings

| source | as written | input that shows it | evidently intended | confidence | as-written member | corrected member |
|---|---|---|---|---|---|---|
| lib/braintree/util.rb:11-16 | A nested hash with no entries is serialised as an empty piece. Sorting puts it first, so the text starts with `&`, and `parse_query_string` raises on that empty couplet | `{a: {}, b: "1"}` gives `&b=1` | Empty nested hashes contribute nothing, giving `b=1`, which parses back | medium; not executed | QueryString.EmptyNestedHashBreaksParse | QueryString.CompactHashToQueryString |

=== FILE: collections.dfy ===
/** Generic facts about sequences used across the model. */
module Collections {

  lemma MultisetTail<T>(s: seq<T>)
    requires |s| > 0
    ensures multiset(s[1..]) == multiset(s) - multiset{s[0]}
  {
    assert s == [s[0]] + s[1..];
  }

  /** Moving the split point of s one element to the right. */
  lemma SplitStep<T>(s: seq<T>, n: nat)
    requires n < |s|
    ensures s[..n] + s[n..] == s
    ensures s[n..][0] == s[n] && s[n..][1..] == s[n + 1..]
    ensures s[..n] + [s[n]] == s[..n + 1]
  {
  }

  /** Two non-empty sequences with the same head and the same tail are equal. */
  lemma SameHeadTail<T>(a: seq<T>, b: seq<T>)
    requires |a| > 0 && |b| > 0 && a[0] == b[0] && a[1..] == b[1..]
    ensures a == b
  {
    assert a == [a[0]] + a[1..];
    assert b == [b[0]] + b[1..];
  }

  /** Appending x after the tail of s, with the head put back, appends it to s. */
  lemma ConsAppendLast<T>(s: seq<T>, x: T)
    requires |s| > 0
    ensures [s[0]] + (s[1..] + [x]) == s + [x]
  {
    assert s == [s[0]] + s[1..];
  }

  /** Dropping the head of a + m + b drops the head of a. */
  lemma AppendTail<T>(a: seq<T>, m: seq<T>, b: seq<T>)
    requires |a| > 0
    ensures (a + m + b)[0] == a[0] && (a + m + b)[1..] == a[1..] + m + b
  {
  }

  /** The initial part of p + ps is p followed by the initial part of ps. */
  lemma ConsInit<T>(p: T, ps: seq<T>)
    requires |ps| > 0
    ensures ([p] + ps)[..|ps|] == [p] + ps[..|ps| - 1]
    ensures ([p] + ps)[|ps|] == ps[|ps| - 1]
  {
  }

  /** f applied to every element, the results concatenated in order. */
  function ConcatMap<T, U>(f: T -> seq<U>, s: seq<T>): seq<U>
  {
    if |s| == 0 then [] else f(s[0]) + ConcatMap(f, s[1..])
  }

  lemma {:induction false} ConcatMapAppend<T, U>(f: T -> seq<U>, a: seq<T>, b: seq<T>)
    ensures ConcatMap(f, a + b) == ConcatMap(f, a) + ConcatMap(f, b)
  {
    if |a| > 0 {
      assert (a + b)[1..] == a[1..] + b;
      ConcatMapAppend(f, a[1..], b);
    } else {
      assert a + b == b;
    }
  }

  /** What ConcatMap produces, as a multiset, does not depend on the order of its input. */
  lemma {:induction false} ConcatMapPermutation<T, U>(f: T -> seq<U>, a: seq<T>, b: seq<T>)
    requires multiset(a) == multiset(b)
    ensures multiset(ConcatMap(f, a)) == multiset(ConcatMap(f, b))
    decreases |a|
  {
    if |a| == 0 {
      assert |multiset(b)| == 0;
    } else {
      assert a[0] in multiset(b);
      var j :| 0 <= j < |b| && b[j] == a[0];
      var rest := b[..j] + b[j + 1..];
      assert b == b[..j] + [b[j]] + b[j + 1..];
      assert multiset(rest) == multiset(b) - multiset{a[0]};
      MultisetTail(a);
      ConcatMapPermutation(f, a[1..], rest);
      ConcatMapAppend(f, b[..j] + [b[j]], b[j + 1..]);
      ConcatMapAppend(f, b[..j], [b[j]]);
      ConcatMapAppend(f, b[..j], b[j + 1..]);
      assert ConcatMap(f, [b[j]]) == f(b[j]) + ConcatMap(f, []);
    }
  }
}

=== FILE: hash_helpers.dfy ===
/**
 extract_attribute_as_array and symbolize_keys: two small reshapings of the hashes the
 gateway's responses are parsed into.
 */
module HashHelpers {
  import opened Wrappers
  import opened RubyHash
  import opened Collections

  /** What extract_attribute_as_array returns for the value it removed: an Array as it
      is, anything else (nil when the attribute was absent) wrapped in a one-element array. */
  function AsArray(v: Option<Value>): (items: seq<Value>)
    ensures v.Some? && v.value.List? ==> items == v.value.items
    ensures v.None? ==> items == [Nil]
    ensures v.Some? && !v.value.List? ==> items == [v.value]
  {
    match v
    case Some(List(items)) => items
    case Some(x) => [x]
    case None => [Nil]
  }

  /** extract_attribute_as_array(hash, attribute): the hash after Hash#delete and the
      removed value as an array. Every other key keeps its value; with distinct keys the
      attribute is gone. */
  function ExtractAttributeAsArray(h: seq<Entry>, attribute: Key): (r: (seq<Entry>, seq<Value>))
    ensures r.1 == AsArray(Lookup(h, attribute))
    ensures forall k :: k != attribute ==> Lookup(r.0, k) == Lookup(h, k)
    ensures forall e :: e in h && e.key != attribute ==> e in r.0
    ensures forall e :: e in r.0 ==> e in h
    ensures KeysDistinct(h) ==> Lookup(r.0, attribute) == None && KeysDistinct(r.0)
  {
    (Delete(h, attribute), AsArray(Lookup(h, attribute)))
  }

  /** The array holds exactly one element unless the attribute held an Array. */
  lemma ExtractedSingleton(h: seq<Entry>, attribute: Key)
    requires Lookup(h, attribute).None? || !Lookup(h, attribute).value.List?
    ensures |ExtractAttributeAsArray(h, attribute).1| == 1
  {
  }

  /** Storing the removed value back under the attribute restores every lookup. */
  lemma PuttingBackRestores(h: seq<Entry>, attribute: Key, k: Key)
    requires Lookup(h, attribute).Some?
    ensures Lookup(Store(ExtractAttributeAsArray(h, attribute).0, attribute,
                         Lookup(h, attribute).value), k) == Lookup(h, k)
  {
  }

  // symbolize_keys

  /** The names of the keys of h. */
  function Names(h: seq<Entry>): (ns: set<string>)
    ensures forall i :: 0 <= i < |h| ==> h[i].key.name in ns
  {
    if |h| == 0 then {} else {h[0].key.name} + Names(h[1..])
  }

  /** The value of the last entry of h whose key has name n: the one symbolize_keys
      leaves under the symbol when a string and a symbol key share a name. */
  function LastNamed(h: seq<Entry>, n: string): (r: Option<Value>)
    ensures r.Some? <==> n in Names(h)
  {
    if |h| == 0 then None
    else match LastNamed(h[1..], n)
      case Some(v) => Some(v)
      case None => if h[0].key.name == n then Some(h[0].value) else None
  }

  predicate AllHashes(items: seq<Value>)
  {
    forall i :: 0 <= i < |items| ==> items[i].Hash?
  }

  /** What symbolize_keys(hash) leaves behind when no key raises: every key becomes the
      symbol of its name, and the values that are hashes, or arrays made only of hashes,
      are symbolized too. The source rewrites the hash it is given; the model returns the
      result as a new hash. */
  function SymbolizeKeys(h: seq<Entry>): (r: seq<Entry>)
    ensures KeysDistinct(r)
    ensures forall k :: k in Keys(r) <==> k.Sym? && k.name in Names(h)
    decreases h, 1
  {
    SymbolizeInto(h, [])
  }

  /** The iteration of symbolize_keys: each entry of h is stored into acc under its symbol. */
  function SymbolizeInto(h: seq<Entry>, acc: seq<Entry>): (r: seq<Entry>)
    ensures KeysDistinct(acc) ==> KeysDistinct(r)
    ensures forall k :: k in Keys(r) <==> k in Keys(acc) || (k.Sym? && k.name in Names(h))
    decreases h, 0
  {
    if |h| == 0 then acc
    else SymbolizeInto(h[1..], Store(acc, Sym(h[0].key.name), SymbolizeEntryValue(h[0])))
  }

  function SymbolizeEntryValue(e: Entry): Value
    decreases e
  {
    SymbolizeValue(e.value)
  }

  function SymbolizeValue(v: Value): Value
    decreases v
  {
    match v
    case Hash(es) => Hash(SymbolizeKeys(es))
    case List(items) => if AllHashes(items) then List(SymbolizeList(items)) else v
    case _ => v
  }

  function SymbolizeList(items: seq<Value>): (r: seq<Value>)
    ensures |r| == |items|
    decreases items
  {
    if |items| == 0 then [] else [SymbolizeValue(items[0])] + SymbolizeList(items[1..])
  }

  /** A hash symbolize_keys has already been applied to: distinct symbol keys all the
      way down. */
  predicate SymbolizedHash(h: seq<Entry>)
    decreases h
  {
    && KeysDistinct(h)
    && forall i :: 0 <= i < |h| ==> SymbolizedEntry(h[i])
  }

  predicate SymbolizedEntry(e: Entry)
    decreases e
  {
    e.key.Sym? && SymbolizedValue(e.value)
  }

  predicate SymbolizedValue(v: Value)
    decreases v
  {
    match v
    case Hash(es) => SymbolizedHash(es)
    case List(items) => AllHashes(items) ==> forall i :: 0 <= i < |items| ==> SymbolizedValue(items[i])
    case _ => true
  }

  /** symbolize_keys leaves a symbolized hash: its result satisfies SymbolizedHash. */
  lemma {:induction false} SymbolizeKeysSymbolized(h: seq<Entry>)
    ensures SymbolizedHash(SymbolizeKeys(h))
    decreases h, 1
  {
    SymbolizeIntoSymbolized(h, []);
  }

  lemma {:induction false} SymbolizeIntoSymbolized(h: seq<Entry>, acc: seq<Entry>)
    requires SymbolizedHash(acc)
    ensures SymbolizedHash(SymbolizeInto(h, acc))
    decreases h, 0
  {
    if |h| > 0 {
      var k := Sym(h[0].key.name);
      var v := SymbolizeEntryValue(h[0]);
      SymbolizeEntrySymbolized(h[0]);
      StoreSymbolized(acc, k, v);
      SymbolizeIntoSymbolized(h[1..], Store(acc, k, v));
    }
  }

  lemma {:induction false} StoreSymbolized(acc: seq<Entry>, k: Key, v: Value)
    requires SymbolizedHash(acc) && k.Sym? && SymbolizedValue(v)
    ensures SymbolizedHash(Store(acc, k, v))
  {
    var r := Store(acc, k, v);
    StoreEntries(acc, k, v);
    forall i | 0 <= i < |r|
      ensures SymbolizedEntry(r[i])
    {
      assert r[i] in r;
      if r[i] != Entry(k, v) {
        assert r[i] in acc;
        var j :| 0 <= j < |acc| && acc[j] == r[i];
      }
    }
  }

  lemma {:induction false} SymbolizeEntrySymbolized(e: Entry)
    ensures SymbolizedValue(SymbolizeEntryValue(e))
    decreases e
  {
    SymbolizeValueSymbolized(e.value);
  }

  lemma {:induction false} SymbolizeValueSymbolized(v: Value)
    ensures SymbolizedValue(SymbolizeValue(v))
    decreases v
  {
    match v
    case Hash(es) => SymbolizeKeysSymbolized(es);
    case List(items) =>
      if AllHashes(items) {
        SymbolizeListSymbolized(items);
      }
    case _ =>
  }

  lemma {:induction false} SymbolizeListSymbolized(items: seq<Value>)
    requires AllHashes(items)
    ensures AllHashes(SymbolizeList(items))
    ensures forall i :: 0 <= i < |items| ==> SymbolizedValue(SymbolizeList(items)[i])
    decreases items
  {
    if |items| > 0 {
      SymbolizeValueSymbolized(items[0]);
      SymbolizeListSymbolized(items[1..]);
      var r := SymbolizeList(items);
      assert r == [SymbolizeValue(items[0])] + SymbolizeList(items[1..]);
      forall i | 0 <= i < |items|
        ensures r[i].Hash? && SymbolizedValue(r[i])
      {
        if i > 0 {
          assert r[i] == SymbolizeList(items[1..])[i - 1];
          assert items[1..][i - 1].Hash?;
        } else {
          assert items[0].Hash?;
        }
      }
    }
  }

  /** symbolize_keys changes nothing in a hash that is already symbolized. */
  lemma {:induction false} SymbolizedUnchanged(h: seq<Entry>)
    requires SymbolizedHash(h)
    ensures SymbolizeKeys(h) == h
    decreases h, 1
  {
    SymbolizeIntoUnchanged(h, 0);
    assert h[0..] == h;
  }

  /** The fold, started at position n of a symbolized hash with the entries before n
      already moved over, ends with the hash itself. */
  lemma {:induction false} SymbolizeIntoUnchanged(all: seq<Entry>, n: nat)
    requires SymbolizedHash(all) && n <= |all|
    ensures SymbolizeInto(all[n..], all[..n]) == all
    decreases all[n..], 0
  {
    if n == |all| {
      assert all[..n] == all;
    } else {
      SplitStep(all, n);
      StoreNext(all[..n], all[n..]);
      SymbolizeIntoUnchanged(all, n + 1);
    }
  }

  /** One step of symbolize_keys over a symbolized hash appends the entry unchanged. */
  lemma StoreNext(acc: seq<Entry>, h: seq<Entry>)
    requires SymbolizedHash(acc + h) && |h| > 0
    ensures Store(acc, Sym(h[0].key.name), SymbolizeEntryValue(h[0])) == acc + [h[0]]
    decreases h[0], 1
  {
    NextSymbolized(acc, h);
    EntryUnchanged(h[0]);
    StoreEntries(acc, h[0].key, h[0].value);
  }

  /** In a symbolized hash acc + h, the first entry of h carries a symbol acc lacks. */
  lemma NextSymbolized(acc: seq<Entry>, h: seq<Entry>)
    requires SymbolizedHash(acc + h) && |h| > 0
    ensures SymbolizedEntry(h[0])
    ensures h[0].key == Sym(h[0].key.name)
    ensures h[0].key !in Keys(acc)
  {
    var all := acc + h;
    assert all[|acc|] == h[0];
    forall j | 0 <= j < |acc|
      ensures acc[j].key != h[0].key
    {
      assert all[j] == acc[j];
    }
    AbsentKey(acc, h[0].key);
  }

  lemma {:induction false} EntryUnchanged(e: Entry)
    requires SymbolizedEntry(e)
    ensures SymbolizeEntryValue(e) == e.value
    decreases e, 0
  {
    ValueUnchanged(e.value);
  }

  lemma {:induction false} ValueUnchanged(v: Value)
    requires SymbolizedValue(v)
    ensures SymbolizeValue(v) == v
    decreases v
  {
    match v
    case Hash(es) => SymbolizedUnchanged(es);
    case List(items) =>
      if AllHashes(items) {
        ListUnchanged(items);
      }
    case _ =>
  }

  lemma {:induction false} ListUnchanged(items: seq<Value>)
    requires forall i :: 0 <= i < |items| ==> SymbolizedValue(items[i])
    ensures SymbolizeList(items) == items
    decreases items
  {
    if |items| > 0 {
      ValueUnchanged(items[0]);
      ListUnchanged(items[1..]);
      assert items == [items[0]] + items[1..];
    }
  }

  /** symbolize_keys is idempotent. */
  lemma SymbolizeKeysIdempotent(h: seq<Entry>)
    ensures SymbolizeKeys(SymbolizeKeys(h)) == SymbolizeKeys(h)
  {
    SymbolizeKeysSymbolized(h);
    SymbolizedUnchanged(SymbolizeKeys(h));
  }

  /** Under the symbol of each name stands the symbolized value of the last entry with
      that name; a name h does not use is absent. */
  lemma {:induction false} SymbolizeKeysLookup(h: seq<Entry>, n: string)
    ensures Lookup(SymbolizeKeys(h), Sym(n)) ==
      match LastNamed(h, n)
      case Some(v) => Some(SymbolizeValue(v))
      case None => None
  {
    SymbolizeIntoLookup(h, [], n);
  }

  lemma {:induction false} SymbolizeIntoLookup(h: seq<Entry>, acc: seq<Entry>, n: string)
    ensures Lookup(SymbolizeInto(h, acc), Sym(n)) ==
      match LastNamed(h, n)
      case Some(v) => Some(SymbolizeValue(v))
      case None => Lookup(acc, Sym(n))
  {
    if |h| > 0 {
      SymbolizeIntoLookup(h[1..], Store(acc, Sym(h[0].key.name), SymbolizeEntryValue(h[0])), n);
    }
  }

  // symbolize_keys when a key cannot become a symbol

  /** The ArgumentError Ruby 1.8's String#to_sym raises, with the offending text. */
  datatype SymbolError = InternError(name: string)

  /** key.to_sym raises: a string key whose text cannot become a symbol. A symbol key is
      returned as it is. */
  predicate Raises(k: Key)
  {
    k.Str? && !Symbolizable(k.name)
  }

  /** symbolize_keys as the source runs it: for each entry, key.to_sym first, then the
      value; the first key that cannot become a symbol stops everything. */
  function TrySymbolizeKeys(h: seq<Entry>): Result<seq<Entry>, SymbolError>
    decreases h, 1
  {
    TrySymbolizeInto(h, [])
  }

  function TrySymbolizeInto(h: seq<Entry>, acc: seq<Entry>): Result<seq<Entry>, SymbolError>
    decreases h, 0
  {
    if |h| == 0 then Success(acc)
    else if Raises(h[0].key) then Failure(InternError(h[0].key.name))
    else match TrySymbolizeEntryValue(h[0])
      case Failure(e) => Failure(e)
      case Success(v) => TrySymbolizeInto(h[1..], Store(acc, Sym(h[0].key.name), v))
  }

  function TrySymbolizeEntryValue(e: Entry): Result<Value, SymbolError>
    decreases e
  {
    TrySymbolizeValue(e.value)
  }

  function TrySymbolizeValue(v: Value): Result<Value, SymbolError>
    decreases v
  {
    match v
    case Hash(es) =>
      (match TrySymbolizeKeys(es)
       case Failure(e) => Failure(e)
       case Success(r) => Success(Hash(r)))
    case List(items) =>
      if AllHashes(items) then
        match TrySymbolizeList(items)
        case Failure(e) => Failure(e)
        case Success(r) => Success(List(r))
      else Success(v)
    case _ => Success(v)
  }

  function TrySymbolizeList(items: seq<Value>): Result<seq<Value>, SymbolError>
    decreases items
  {
    if |items| == 0 then Success([])
    else match TrySymbolizeValue(items[0])
      case Failure(e) => Failure(e)
      case Success(first) =>
        match TrySymbolizeList(items[1..])
        case Failure(e) => Failure(e)
        case Success(rest) => Success([first] + rest)
  }

  /** The keys symbolize_keys turns into symbols, in the order it reaches them: each
      entry's key, then the keys inside its value. */
  function VisitedKeys(h: seq<Entry>): seq<Key>
    decreases h
  {
    if |h| == 0 then [] else EntryKeys(h[0]) + VisitedKeys(h[1..])
  }

  function EntryKeys(e: Entry): seq<Key>
    decreases e
  {
    [e.key] + ValueKeys(e.value)
  }

  function ValueKeys(v: Value): seq<Key>
    decreases v
  {
    match v
    case Hash(es) => VisitedKeys(es)
    case List(items) => if AllHashes(items) then ListKeys(items) else []
    case _ => []
  }

  function ListKeys(items: seq<Value>): seq<Key>
    decreases items
  {
    if |items| == 0 then [] else ValueKeys(items[0]) + ListKeys(items[1..])
  }

  /** The text of the first key in ks that raises. */
  function FirstRaising(ks: seq<Key>): (r: Option<string>)
    ensures r.None? <==> forall i :: 0 <= i < |ks| ==> !Raises(ks[i])
    ensures r.Some? ==> exists i :: 0 <= i < |ks| && ks[i] == Str(r.value) && Raises(ks[i])
                                    && forall j :: 0 <= j < i ==> !Raises(ks[j])
  {
    if |ks| == 0 then None
    else if Raises(ks[0]) then Some(ks[0].name)
    else
      var r := FirstRaising(ks[1..]);
      assert forall i :: 0 < i < |ks| ==> ks[i] == ks[1..][i - 1];
      if r.Some? then
        assert exists i :: 0 <= i < |ks[1..]| && ks[1..][i] == Str(r.value) && Raises(ks[1..][i])
                           && forall j :: 0 <= j < i ==> !Raises(ks[1..][j]);
        var i :| 0 <= i < |ks[1..]| && ks[1..][i] == Str(r.value) && Raises(ks[1..][i])
                 && forall j :: 0 <= j < i ==> !Raises(ks[1..][j]);
        assert ks[i + 1] == Str(r.value);
        r
      else r
  }

  lemma {:induction false} FirstRaisingAppend(a: seq<Key>, b: seq<Key>)
    ensures FirstRaising(a + b) == if FirstRaising(a).Some? then FirstRaising(a) else FirstRaising(b)
  {
    if |a| > 0 {
      AppendTail(a, [], b);
      assert a + [] + b == a + b;
      FirstRaisingAppend(a[1..], b);
      assert a[1..] + [] + b == a[1..] + b;
    } else {
      assert a + b == b;
    }
  }

  /** What symbolize_keys does in full: it raises at the first string key, in the order
      it reaches them, whose text cannot become a symbol, and otherwise leaves the
      symbolized hash. */
  lemma TrySymbolizeKeysReads(h: seq<Entry>)
    ensures TrySymbolizeKeys(h) == match FirstRaising(VisitedKeys(h))
      case None => Success(SymbolizeKeys(h))
      case Some(n) => Failure(InternError(n))
  {
    TrySymbolizeIntoReads(h, []);
  }

  lemma {:induction false} TrySymbolizeIntoReads(h: seq<Entry>, acc: seq<Entry>)
    ensures TrySymbolizeInto(h, acc) == match FirstRaising(VisitedKeys(h))
      case None => Success(SymbolizeInto(h, acc))
      case Some(n) => Failure(InternError(n))
    decreases h, 0
  {
    if |h| > 0 {
      var e := h[0];
      FirstRaisingAppend(EntryKeys(e), VisitedKeys(h[1..]));
      FirstRaisingAppend([e.key], ValueKeys(e.value));
      TrySymbolizeEntryReads(e);
      if !Raises(e.key) && FirstRaising(ValueKeys(e.value)).None? {
        TrySymbolizeIntoReads(h[1..], Store(acc, Sym(e.key.name), SymbolizeEntryValue(e)));
      }
    }
  }

  lemma {:induction false} TrySymbolizeEntryReads(e: Entry)
    ensures TrySymbolizeEntryValue(e) == match FirstRaising(ValueKeys(e.value))
      case None => Success(SymbolizeEntryValue(e))
      case Some(n) => Failure(InternError(n))
    decreases e
  {
    TrySymbolizeValueReads(e.value);
  }

  lemma {:induction false} TrySymbolizeValueReads(v: Value)
    ensures TrySymbolizeValue(v) == match FirstRaising(ValueKeys(v))
      case None => Success(SymbolizeValue(v))
      case Some(n) => Failure(InternError(n))
    decreases v
  {
    match v
    case Hash(es) => TrySymbolizeKeysReads(es);
    case List(items) =>
      if AllHashes(items) {
        TrySymbolizeListReads(items);
      }
    case _ =>
  }

  lemma {:induction false} TrySymbolizeListReads(items: seq<Value>)
    ensures TrySymbolizeList(items) == match FirstRaising(ListKeys(items))
      case None => Success(SymbolizeList(items))
      case Some(n) => Failure(InternError(n))
    decreases items
  {
    if |items| > 0 {
      TrySymbolizeValueReads(items[0]);
      TrySymbolizeListReads(items[1..]);
      FirstRaisingAppend(ValueKeys(items[0]), ListKeys(items[1..]));
    }
  }

  /** A string key whose text cannot become a symbol raises, with that text. */
  lemma StringKeyRaises(name: string, v: Value)
    requires !Symbolizable(name)
    ensures TrySymbolizeKeys([Entry(Str(name), v)]) == Failure(InternError(name))
  {
  }

  /** A hash already symbolized all the way down has only symbol keys, so nothing raises
      and it comes back unchanged. */
  lemma SymbolizedNeverRaises(h: seq<Entry>)
    requires SymbolizedHash(h)
    ensures TrySymbolizeKeys(h) == Success(h)
  {
    TrySymbolizeKeysReads(h);
    SymbolEntriesRaiseNothing(h);
    SymbolizedUnchanged(h);
  }

  /** Running symbolize_keys again on what it returned succeeds and changes nothing. */
  lemma TrySymbolizeKeysIdempotent(h: seq<Entry>)
    requires TrySymbolizeKeys(h).Success?
    ensures TrySymbolizeKeys(TrySymbolizeKeys(h).value) == TrySymbolizeKeys(h)
  {
    TrySymbolizeKeysReads(h);
    SymbolizeKeysSymbolized(h);
    SymbolizedNeverRaises(SymbolizeKeys(h));
  }

  lemma {:induction false} SymbolEntriesRaiseNothing(h: seq<Entry>)
    requires forall i :: 0 <= i < |h| ==> SymbolizedEntry(h[i])
    ensures FirstRaising(VisitedKeys(h)).None?
    decreases h
  {
    if |h| > 0 {
      assert forall i :: 0 <= i < |h[1..]| ==> h[1..][i] == h[i + 1];
      SymbolEntryRaisesNothing(h[0]);
      SymbolEntriesRaiseNothing(h[1..]);
      FirstRaisingAppend(EntryKeys(h[0]), VisitedKeys(h[1..]));
    }
  }

  lemma {:induction false} SymbolEntryRaisesNothing(e: Entry)
    requires SymbolizedEntry(e)
    ensures FirstRaising(EntryKeys(e)).None?
    decreases e
  {
    SymbolValueRaisesNothing(e.value);
    FirstRaisingAppend([e.key], ValueKeys(e.value));
  }

  lemma {:induction false} SymbolValueRaisesNothing(v: Value)
    requires SymbolizedValue(v)
    ensures FirstRaising(ValueKeys(v)).None?
    decreases v
  {
    match v
    case Hash(es) => SymbolEntriesRaiseNothing(es);
    case List(items) =>
      if AllHashes(items) {
        SymbolListRaisesNothing(items);
      }
    case _ =>
  }

  lemma {:induction false} SymbolListRaisesNothing(items: seq<Value>)
    requires forall i :: 0 <= i < |items| ==> SymbolizedValue(items[i])
    ensures FirstRaising(ListKeys(items)).None?
    decreases items
  {
    if |items| > 0 {
      assert forall i :: 0 <= i < |items[1..]| ==> items[1..][i] == items[i + 1];
      SymbolValueRaisesNothing(items[0]);
      SymbolListRaisesNothing(items[1..]);
      FirstRaisingAppend(ValueKeys(items[0]), ListKeys(items[1..]));
    }
  }
}

=== FILE: key_paths.dfy ===
/**
 _flatten_hash_keys, _flatten_valid_keys and verify_keys: the bracketed names of the
 leaves of a parameter hash, the names a whitelist allows, and the check that the first
 are all among the second.
 */
module KeyPaths {
  import opened Wrappers
  import opened Text
  import opened RubyHash

  function Paths(leaves: seq<Leaf>): (r: seq<string>)
    ensures |r| == |leaves|
    ensures forall i :: 0 <= i < |leaves| ==> r[i] == leaves[i].path
  {
    if |leaves| == 0 then [] else [leaves[0].path] + Paths(leaves[1..])
  }

  lemma {:induction false} PathsAppend(a: seq<Leaf>, b: seq<Leaf>)
    ensures Paths(a + b) == Paths(a) + Paths(b)
  {
  }

  /** _flatten_hash_keys: the bracketed name of every non-Hash value in h, sorted. */
  function FlattenHashKeys(h: seq<Entry>, ns: Option<string>): (r: seq<string>)
    ensures Sorted(r)
    ensures multiset(r) == multiset(Paths(Leaves(h, ns)))
    decreases h, 1
  {
    Sort(CollectHashKeys(h, ns))
  }

  /** The inject loop of _flatten_hash_keys, before the final sort. */
  function CollectHashKeys(h: seq<Entry>, ns: Option<string>): (r: seq<string>)
    ensures multiset(r) == multiset(Paths(Leaves(h, ns)))
    decreases h, 0
  {
    if |h| == 0 then []
    else
      PathsAppend(EntryLeaves(h[0], ns), Leaves(h[1..], ns));
      EntryHashKeys(h[0], ns) + CollectHashKeys(h[1..], ns)
  }

  function EntryHashKeys(e: Entry, ns: Option<string>): (r: seq<string>)
    ensures multiset(r) == multiset(Paths(EntryLeaves(e, ns)))
    decreases e
  {
    match e.value
    case Hash(sub) =>
      assert EntryLeaves(e, ns) == Leaves(sub, Some(FullKey(ns, e.key)));
      FlattenHashKeys(sub, Some(FullKey(ns, e.key)))
    case _ =>
      assert EntryLeaves(e, ns) == [Leaf(FullKey(ns, e.key), e.value)];
      [FullKey(ns, e.key)]
  }

  /** One entry per leaf. */
  lemma FlattenHashKeysCount(h: seq<Entry>, ns: Option<string>)
    ensures |FlattenHashKeys(h, ns)| == |Leaves(h, ns)|
  {
    assert |multiset(FlattenHashKeys(h, ns))| == |multiset(Paths(Leaves(h, ns)))|;
  }

  /** An empty nested hash adds no key path. */
  lemma EmptyHashAddsNoPath(h: seq<Entry>, k: Key, ns: Option<string>)
    ensures FlattenHashKeys(h + [Entry(k, Hash([]))], ns) == FlattenHashKeys(h, ns)
  {
    LeavesAppend(h, [Entry(k, Hash([]))], ns);
    assert EntryLeaves(Entry(k, Hash([])), ns) == [];
    assert Leaves([Entry(k, Hash([]))], ns) == [];
    assert Leaves(h + [Entry(k, Hash([]))], ns) == Leaves(h, ns);
    SortedUnique(FlattenHashKeys(h + [Entry(k, Hash([]))], ns), FlattenHashKeys(h, ns));
  }

  // ---------------------------------------------------------------------------------
  // Leaves named by their key paths

  /** path is the sequence of keys leading from h to a value that is not a Hash. */
  ghost predicate LeafAt(h: seq<Entry>, path: seq<Key>)
    decreases h
  {
    && |path| > 0
    && exists i :: 0 <= i < |h| && h[i].key == path[0] && EntryLeafAt(h[i], path)
  }

  ghost predicate EntryLeafAt(e: Entry, path: seq<Key>)
    requires |path| > 0
    decreases e
  {
    match e.value
    case Hash(sub) => LeafAt(sub, path[1..])
    case _ => |path| == 1
  }

  /** "a[b][c]" for the path a, b, c under no namespace; "n[a][b][c]" under namespace n. */
  function BracketName(ns: Option<string>, path: seq<Key>): string
    requires |path| > 0
    decreases |path|
  {
    if |path| == 1 then FullKey(ns, path[0])
    else BracketName(Some(FullKey(ns, path[0])), path[1..])
  }

  /** The names _flatten_hash_keys lists are exactly the bracketed names of the key paths
      that lead to non-Hash values. */
  lemma {:induction false} PathsNameLeaves(h: seq<Entry>, ns: Option<string>, p: string)
    ensures p in Paths(Leaves(h, ns)) <==> exists path :: LeafAt(h, path) && BracketName(ns, path) == p
    decreases h
  {
    if |h| > 0 {
      PathsAppend(EntryLeaves(h[0], ns), Leaves(h[1..], ns));
      PathsNameLeaves(h[1..], ns, p);
      EntryPathsNameLeaves(h[0], ns, p);
      if p in Paths(Leaves(h, ns)) {
        if p in Paths(EntryLeaves(h[0], ns)) {
          var path :| |path| > 0 && path[0] == h[0].key && EntryLeafAt(h[0], path) && BracketName(ns, path) == p;
          assert LeafAt(h, path);
        } else {
          var path :| LeafAt(h[1..], path) && BracketName(ns, path) == p;
          var i :| 0 <= i < |h[1..]| && h[1..][i].key == path[0] && EntryLeafAt(h[1..][i], path);
          assert h[i + 1] == h[1..][i];
          assert LeafAt(h, path);
        }
      }
      if exists path :: LeafAt(h, path) && BracketName(ns, path) == p {
        var path :| LeafAt(h, path) && BracketName(ns, path) == p;
        var i :| 0 <= i < |h| && h[i].key == path[0] && EntryLeafAt(h[i], path);
        if i > 0 {
          assert h[1..][i - 1] == h[i];
          assert LeafAt(h[1..], path);
        }
      }
    }
  }

  lemma {:induction false} EntryPathsNameLeaves(e: Entry, ns: Option<string>, p: string)
    ensures p in Paths(EntryLeaves(e, ns))
        <==> exists path :: |path| > 0 && path[0] == e.key && EntryLeafAt(e, path) && BracketName(ns, path) == p
    decreases e
  {
    match e.value {
      case Hash(sub) =>
        PathsNameLeaves(sub, Some(FullKey(ns, e.key)), p);
        NestedPathsNameLeaves(e, ns, p, sub);
      case _ =>
        if p in Paths(EntryLeaves(e, ns)) {
          assert EntryLeafAt(e, [e.key]) && BracketName(ns, [e.key]) == p;
        }
    }
  }

  /** One step down: the names under a nested hash, given those of the hash itself. */
  lemma NestedPathsNameLeaves(e: Entry, ns: Option<string>, p: string, sub: seq<Entry>)
    requires e.value == Hash(sub)
    requires p in Paths(Leaves(sub, Some(FullKey(ns, e.key))))
        <==> exists path :: LeafAt(sub, path) && BracketName(Some(FullKey(ns, e.key)), path) == p
    ensures p in Paths(EntryLeaves(e, ns))
        <==> exists path :: |path| > 0 && path[0] == e.key && EntryLeafAt(e, path) && BracketName(ns, path) == p
  {
    assert EntryLeaves(e, ns) == Leaves(sub, Some(FullKey(ns, e.key)));
    if p in Paths(EntryLeaves(e, ns)) {
      NestedPathExtends(e, ns, p, sub);
    }
    if exists path :: |path| > 0 && path[0] == e.key && EntryLeafAt(e, path) && BracketName(ns, path) == p {
      var path :| |path| > 0 && path[0] == e.key && EntryLeafAt(e, path) && BracketName(ns, path) == p;
      assert LeafAt(sub, path[1..]) && BracketName(Some(FullKey(ns, e.key)), path[1..]) == p;
    }
  }

  lemma NestedPathExtends(e: Entry, ns: Option<string>, p: string, sub: seq<Entry>)
    requires e.value == Hash(sub)
    requires exists path :: LeafAt(sub, path) && BracketName(Some(FullKey(ns, e.key)), path) == p
    ensures exists path :: |path| > 0 && path[0] == e.key && EntryLeafAt(e, path) && BracketName(ns, path) == p
  {
    var rest :| LeafAt(sub, rest) && BracketName(Some(FullKey(ns, e.key)), rest) == p;
    var path := [e.key] + rest;
    assert path[1..] == rest;
    assert EntryLeafAt(e, path) && BracketName(ns, path) == p;
  }

  /** Membership in _flatten_hash_keys, stated through key paths. */
  lemma {:induction false} FlattenHashKeysNamesLeaves(h: seq<Entry>, p: string)
    ensures p in FlattenHashKeys(h, None) <==> exists path :: LeafAt(h, path) && BracketName(None, path) == p
  {
    assert p in FlattenHashKeys(h, None) <==> p in multiset(Paths(Leaves(h, None)));
    PathsNameLeaves(h, None, p);
  }

  // ---------------------------------------------------------------------------------
  // The whitelist

  /** One element of the whitelist given to verify_keys: a plain key, or a Hash whose
      entries map a key to the whitelist of the keys nested under it. */
  datatype ValidKey = Plain(key: Key) | Group(entries: seq<GroupEntry>)

  datatype GroupEntry = GroupEntry(key: Key, subkeys: seq<ValidKey>)

  /** key.keys[0] of an empty Hash is nil, and nil.inject raises. */
  datatype SpecError = EmptyGroup

  predicate NoEmptyGroup(vs: seq<ValidKey>)
    decreases vs
  {
    |vs| == 0 || (ItemNoEmptyGroup(vs[0]) && NoEmptyGroup(vs[1..]))
  }

  predicate ItemNoEmptyGroup(v: ValidKey)
    decreases v
  {
    match v
    case Plain(_) => true
    case Group(es) => |es| > 0 && GroupEntryNoEmptyGroup(es[0])
  }

  predicate GroupEntryNoEmptyGroup(g: GroupEntry)
    decreases g
  {
    NoEmptyGroup(g.subkeys)
  }

  /** The names the whitelist allows, in whitelist order: a plain key under its namespace,
      and for a Hash the names its first entry allows under that entry's key. */
  function AllowedPaths(vs: seq<ValidKey>, ns: Option<string>): seq<string>
    decreases vs
  {
    if |vs| == 0 then [] else ItemPaths(vs[0], ns) + AllowedPaths(vs[1..], ns)
  }

  function ItemPaths(v: ValidKey, ns: Option<string>): seq<string>
    decreases v
  {
    match v
    case Plain(k) => [FullKey(ns, k)]
    case Group(es) => if |es| == 0 then [] else GroupEntryPaths(es[0], ns)
  }

  function GroupEntryPaths(g: GroupEntry, ns: Option<string>): seq<string>
    decreases g
  {
    AllowedPaths(g.subkeys, Some(FullKey(ns, g.key)))
  }

  lemma {:induction false} AllowedPathsAppend(a: seq<ValidKey>, b: seq<ValidKey>, ns: Option<string>)
    ensures AllowedPaths(a + b, ns) == AllowedPaths(a, ns) + AllowedPaths(b, ns)
    ensures NoEmptyGroup(a + b) <==> NoEmptyGroup(a) && NoEmptyGroup(b)
  {
    if |a| > 0 {
      assert (a + b)[1..] == a[1..] + b;
      AllowedPathsAppend(a[1..], b, ns);
    } else {
      assert a + b == b;
    }
  }

  /** _flatten_valid_keys: the names the whitelist allows, sorted; it raises when the
      whitelist holds an empty Hash. */
  function FlattenValidKeys(vs: seq<ValidKey>, ns: Option<string>): (r: Result<seq<string>, SpecError>)
    ensures r.Success? <==> NoEmptyGroup(vs)
    ensures r.Success? ==> Sorted(r.value) && multiset(r.value) == multiset(AllowedPaths(vs, ns))
    decreases vs, 1
  {
    match CollectValidKeys(vs, ns)
    case Failure(e) => Failure(e)
    case Success(ks) => Success(Sort(ks))
  }

  /** The inject loop of _flatten_valid_keys, before the final sort. */
  function CollectValidKeys(vs: seq<ValidKey>, ns: Option<string>): (r: Result<seq<string>, SpecError>)
    ensures r.Success? <==> NoEmptyGroup(vs)
    ensures r.Success? ==> multiset(r.value) == multiset(AllowedPaths(vs, ns))
    decreases vs, 0
  {
    if |vs| == 0 then Success([])
    else
      match ItemValidKeys(vs[0], ns)
      case Failure(e) => Failure(e)
      case Success(head) =>
        match CollectValidKeys(vs[1..], ns)
        case Failure(e) => Failure(e)
        case Success(rest) => Success(head + rest)
  }

  function ItemValidKeys(v: ValidKey, ns: Option<string>): (r: Result<seq<string>, SpecError>)
    ensures r.Success? <==> ItemNoEmptyGroup(v)
    ensures r.Success? ==> multiset(r.value) == multiset(ItemPaths(v, ns))
    decreases v
  {
    match v
    case Plain(k) => Success([FullKey(ns, k)])
    case Group(es) => if |es| == 0 then Failure(EmptyGroup) else GroupEntryValidKeys(es[0], ns)
  }

  function GroupEntryValidKeys(g: GroupEntry, ns: Option<string>): (r: Result<seq<string>, SpecError>)
    ensures r.Success? <==> GroupEntryNoEmptyGroup(g)
    ensures r.Success? ==> multiset(r.value) == multiset(GroupEntryPaths(g, ns))
    decreases g
  {
    FlattenValidKeys(g.subkeys, Some(FullKey(ns, g.key)))
  }

  /** A plain key k is allowed as "n[k]" under namespace n and as "k" at the top. */
  lemma PlainKeyAllowed(vs: seq<ValidKey>, i: nat, ns: Option<string>)
    requires i < |vs| && vs[i].Plain? && NoEmptyGroup(vs)
    ensures FullKey(ns, vs[i].key) in FlattenValidKeys(vs, ns).value
  {
    AllowedPathsAppend(vs[..i], vs[i..], ns);
    assert vs == vs[..i] + vs[i..];
    assert AllowedPaths(vs[i..], ns) == [FullKey(ns, vs[i].key)] + AllowedPaths(vs[i + 1..], ns) by {
      assert vs[i..][1..] == vs[i + 1..];
    }
    assert FullKey(ns, vs[i].key) in multiset(AllowedPaths(vs, ns));
  }

  /** A Hash in the whitelist uses its first entry only: dropping the others changes
      nothing. */
  lemma GroupUsesFirstEntry(vs: seq<ValidKey>, i: nat, ns: Option<string>)
    requires i < |vs| && vs[i].Group? && |vs[i].entries| > 0
    ensures FlattenValidKeys(vs[i := Group(vs[i].entries[..1])], ns) == FlattenValidKeys(vs, ns)
  {
    var vs' := vs[i := Group(vs[i].entries[..1])];
    assert vs == vs[..i] + [vs[i]] + vs[i + 1..];
    assert vs' == vs[..i] + [vs'[i]] + vs[i + 1..];
    AllowedPathsAppend(vs[..i] + [vs[i]], vs[i + 1..], ns);
    AllowedPathsAppend(vs[..i], [vs[i]], ns);
    AllowedPathsAppend(vs[..i] + [vs'[i]], vs[i + 1..], ns);
    AllowedPathsAppend(vs[..i], [vs'[i]], ns);
    assert vs'[i].entries[0] == vs[i].entries[0];
    assert ItemNoEmptyGroup(vs'[i]) == ItemNoEmptyGroup(vs[i]);
    assert ItemPaths(vs'[i], ns) == ItemPaths(vs[i], ns);
    assert AllowedPaths([vs[i]], ns) == ItemPaths(vs[i], ns);
    assert AllowedPaths([vs'[i]], ns) == ItemPaths(vs'[i], ns);
    assert NoEmptyGroup([vs[i]]) == ItemNoEmptyGroup(vs[i]);
    assert NoEmptyGroup([vs'[i]]) == ItemNoEmptyGroup(vs'[i]);
    assert NoEmptyGroup(vs') == NoEmptyGroup(vs);
    if NoEmptyGroup(vs) {
      SortedUnique(FlattenValidKeys(vs', ns).value, FlattenValidKeys(vs, ns).value);
    } else {
      assert FlattenValidKeys(vs', ns).error.EmptyGroup? && FlattenValidKeys(vs, ns).error.EmptyGroup?;
    }
  }

  /** Every name the first entry of a whitelisted Hash allows, under that entry's key, is
      allowed by the whole whitelist. */
  lemma GroupEntryNamesAllowed(vs: seq<ValidKey>, i: nat, ns: Option<string>, p: string)
    requires i < |vs| && vs[i].Group? && |vs[i].entries| > 0 && NoEmptyGroup(vs)
    requires var g := vs[i].entries[0];
             FlattenValidKeys(g.subkeys, Some(FullKey(ns, g.key))).Success?
             && p in FlattenValidKeys(g.subkeys, Some(FullKey(ns, g.key))).value
    ensures p in FlattenValidKeys(vs, ns).value
  {
    var g := vs[i].entries[0];
    assert p in multiset(AllowedPaths(g.subkeys, Some(FullKey(ns, g.key))));
    assert p in ItemPaths(vs[i], ns);
    ItemPathsAllowed(vs, i, ns);
    assert p in multiset(AllowedPaths(vs, ns));
  }

  /** The names one item allows are among those the whole whitelist allows. */
  lemma ItemPathsAllowed(vs: seq<ValidKey>, i: nat, ns: Option<string>)
    requires i < |vs|
    ensures forall p :: p in ItemPaths(vs[i], ns) ==> p in AllowedPaths(vs, ns)
  {
    assert vs == vs[..i] + [vs[i]] + vs[i + 1..];
    AllowedPathsAppend(vs[..i] + [vs[i]], vs[i + 1..], ns);
    AllowedPathsAppend(vs[..i], [vs[i]], ns);
    assert AllowedPaths([vs[i]], ns) == ItemPaths(vs[i], ns);
  }

  /** Extending the whitelist keeps every name it allowed. */
  lemma {:induction false} MoreValidKeysAllowMore(vs: seq<ValidKey>, more: seq<ValidKey>, ns: Option<string>, p: string)
    requires NoEmptyGroup(vs) && NoEmptyGroup(more)
    requires p in FlattenValidKeys(vs, ns).value
    ensures FlattenValidKeys(vs + more, ns).Success?
    ensures p in FlattenValidKeys(vs + more, ns).value
  {
    AllowedPathsAppend(vs, more, ns);
    assert p in multiset(AllowedPaths(vs, ns));
    assert p in multiset(AllowedPaths(vs + more, ns));
  }

  // ---------------------------------------------------------------------------------
  // verify_keys

  /** Array#-: the elements of a that do not occur in b, in order, repeats kept. */
  function Difference(a: seq<string>, b: seq<string>): (r: seq<string>)
    ensures forall x :: multiset(r)[x] == if x in b then 0 else multiset(a)[x]
  {
    if |a| == 0 then []
    else
      assert a == [a[0]] + a[1..];
      (if a[0] in b then [] else [a[0]]) + Difference(a[1..], b)
  }

  datatype VerifyError =
    | ArgumentError(message: string)   // some keys are not whitelisted
    | Malformed(spec: SpecError)       // the whitelist itself raised

  /** bad lists, sorted, every name of keys that allowed lacks, as often as keys has it. */
  ghost predicate ListsOffenders(bad: seq<string>, keys: seq<string>, allowed: seq<string>)
  {
    && Sorted(bad)
    && forall x :: multiset(bad)[x] == if x in allowed then 0 else multiset(keys)[x]
  }

  lemma SameElements(a: seq<string>, b: seq<string>)
    requires multiset(a) == multiset(b)
    ensures forall p :: p in a <==> p in b
  {
    assert forall p :: p in a <==> p in multiset(a);
    assert forall p :: p in b <==> p in multiset(b);
  }

  lemma NoOffenders(keys: seq<string>, valid: seq<string>, paths: seq<string>, allowed: seq<string>)
    requires multiset(keys) == multiset(paths) && multiset(valid) == multiset(allowed)
    ensures |Difference(keys, valid)| == 0 <==> forall p :: p in paths ==> p in allowed
    ensures forall p :: p in valid <==> p in allowed
  {
    SameElements(keys, paths);
    SameElements(valid, allowed);
    NoDifference(keys, valid);
  }

  lemma NoDifference(a: seq<string>, b: seq<string>)
    ensures |Difference(a, b)| == 0 <==> forall p :: p in a ==> p in b
  {
    var d := Difference(a, b);
    if |d| == 0 {
      forall p | p in a ensures p in b {
        assert p in multiset(a);
        assert multiset(d)[p] == 0;
      }
    } else {
      assert d[0] in multiset(d);
    }
  }

  /** The check verify_keys makes once both name lists are known. */
  function Report(keys: seq<string>, valid: seq<string>): Result<(), VerifyError>
  {
    var invalid := Difference(keys, valid);
    if |invalid| > 0 then Failure(ArgumentError("invalid keys: " + Join(Sort(invalid), ", ")))
    else Success(())
  }

  lemma ReportMeaning(keys: seq<string>, valid: seq<string>, paths: seq<string>, allowed: seq<string>)
    requires multiset(keys) == multiset(paths) && multiset(valid) == multiset(allowed)
    ensures Report(keys, valid).Success? <==> forall p :: p in paths ==> p in allowed
    ensures Report(keys, valid).Failure? ==>
      && Report(keys, valid).error.ArgumentError?
      && exists bad :: && ListsOffenders(bad, paths, allowed)
                       && Report(keys, valid).error.message == "invalid keys: " + Join(bad, ", ")
  {
    NoOffenders(keys, valid, paths, allowed);
    var invalid := Difference(keys, valid);
    if |invalid| > 0 {
      OffendersListed(Sort(invalid), invalid, keys, valid, paths, allowed);
    }
  }

  /** verify_keys: passes when every leaf name of h is allowed by the whitelist, and
      otherwise raises ArgumentError naming the leaves that are not, sorted. */
  function VerifyKeys(vs: seq<ValidKey>, h: seq<Entry>): (r: Result<(), VerifyError>)
    ensures r.Success? <==>
      NoEmptyGroup(vs) && forall p :: p in Paths(Leaves(h, None)) ==> p in AllowedPaths(vs, None)
    ensures !NoEmptyGroup(vs) ==> r == Failure(Malformed(EmptyGroup))
    ensures NoEmptyGroup(vs) && r.Failure? ==>
      && r.error.ArgumentError?
      && exists bad :: && ListsOffenders(bad, Paths(Leaves(h, None)), AllowedPaths(vs, None))
                       && r.error.message == "invalid keys: " + Join(bad, ", ")
  {
    var keys := FlattenHashKeys(h, None);
    match FlattenValidKeys(vs, None)
    case Failure(_) => Failure(Malformed(EmptyGroup))
    case Success(valid) =>
      ReportMeaning(keys, valid, Paths(Leaves(h, None)), AllowedPaths(vs, None));
      Report(keys, valid)
  }

  lemma OffendersListed(bad: seq<string>, invalid: seq<string>, keys: seq<string>, valid: seq<string>,
                        paths: seq<string>, allowed: seq<string>)
    requires bad == Sort(invalid) && invalid == Difference(keys, valid)
    requires multiset(keys) == multiset(paths)
    requires forall p :: p in valid <==> p in allowed
    ensures ListsOffenders(bad, paths, allowed)
  {
  }

  /** Adding keys to the whitelist never makes a passing hash fail. */
  lemma {:induction false} AddingValidKeysKeepsPassing(vs: seq<ValidKey>, more: seq<ValidKey>, h: seq<Entry>)
    requires VerifyKeys(vs, h).Success? && NoEmptyGroup(more)
    ensures VerifyKeys(vs + more, h).Success?
  {
    AllowedPathsAppend(vs, more, None);
  }
}

=== FILE: numerals.dfy ===
/**
 Decimal numerals: Integer#to_s (used to build an error message) and String#to_i
 (used to read a status code that may arrive as text).
 */
module Numerals {

  predicate IsDigit(ch: char)
  {
    '0' <= ch <= '9'
  }

  /** Ruby's isspace: blank, tab, newline, vertical tab, form feed, carriage return. */
  predicate IsSpace(ch: char)
  {
    ch == ' ' || 9 <= ch as int <= 13
  }

  function DigitChar(d: nat): (ch: char)
    requires d < 10
    ensures IsDigit(ch) && ch as int - '0' as int == d
  {
    (('0' as int) + d) as char
  }

  /** Integer#to_s of a non-negative integer: no leading zeros, "0" for zero. */
  function NatToDecimal(n: nat): (s: string)
    ensures |s| >= 1 && forall i :: 0 <= i < |s| ==> IsDigit(s[i])
  {
    if n < 10 then [DigitChar(n)] else NatToDecimal(n / 10) + [DigitChar(n % 10)]
  }

  /** Integer#to_s: a minus sign before the digits of a negative integer. */
  function IntToDecimal(n: int): string
  {
    if n < 0 then "-" + NatToDecimal(-n) else NatToDecimal(n)
  }

  function SkipSpace(s: string): (r: string)
    ensures |r| <= |s| && r == s[|s| - |r|..]
    ensures |r| == 0 || !IsSpace(r[0])
  {
    if |s| > 0 && IsSpace(s[0]) then SkipSpace(s[1..]) else s
  }

  /** The digits String#to_i reads from the front of s: a run of digits in which a single
      underscore may stand between two digits. The underscores are dropped. */
  function DigitPrefix(s: string): (d: string)
    ensures forall i :: 0 <= i < |d| ==> IsDigit(d[i])
  {
    if |s| == 0 || !IsDigit(s[0]) then ""
    else if |s| >= 3 && s[1] == '_' && IsDigit(s[2]) then [s[0]] + DigitPrefix(s[2..])
    else [s[0]] + DigitPrefix(s[1..])
  }

  function DigitValue(ch: char): nat
    requires IsDigit(ch)
  {
    ch as int - '0' as int
  }

  function DigitsValue(d: string): nat
    requires forall i :: 0 <= i < |d| ==> IsDigit(d[i])
  {
    if |d| == 0 then 0
    else DigitsValue(d[..|d| - 1]) * 10 + DigitValue(d[|d| - 1])
  }

  /** The "0d" or "0D" radix prefix base 10 admits after the sign, dropped. */
  function SkipRadix(t: string): (u: string)
    ensures u == t || (|t| >= 2 && u == t[2..])
  {
    if |t| >= 2 && t[0] == '0' && (t[1] == 'd' || t[1] == 'D') then t[2..] else t
  }

  /** The value of the unsigned part: an optional radix prefix, then digits. */
  function UnsignedValue(t: string): nat
  {
    DigitsValue(DigitPrefix(SkipRadix(t)))
  }

  /** String#to_i: leading white space, an optional sign, an optional "0d"/"0D" prefix,
      then digits; 0 when there are none. */
  function ToI(s: string): int
  {
    var t := SkipSpace(s);
    if |t| > 0 && t[0] == '-' then -(UnsignedValue(t[1..]) as int)
    else if |t| > 0 && t[0] == '+' then UnsignedValue(t[1..])
    else UnsignedValue(t)
  }

  lemma {:induction false} DigitPrefixOfDigits(s: string)
    requires forall i :: 0 <= i < |s| ==> IsDigit(s[i])
    ensures DigitPrefix(s) == s
  {
    if |s| > 0 {
      DigitPrefixOfDigits(s[1..]);
      assert [s[0]] + s[1..] == s;
    }
  }

  lemma {:induction false} ValueOfNatToDecimal(n: nat)
    ensures DigitsValue(NatToDecimal(n)) == n
  {
    if n >= 10 {
      ValueOfNatToDecimal(n / 10);
      var s := NatToDecimal(n);
      assert s[..|s| - 1] == NatToDecimal(n / 10);
    }
  }

  /** The digits Integer#to_s writes are read as that number. */
  lemma UnsignedOfDecimal(n: nat)
    ensures UnsignedValue(NatToDecimal(n)) == n
  {
    var d := NatToDecimal(n);
    assert SkipRadix(d) == d by {
      if |d| >= 2 {
        assert IsDigit(d[1]);
      }
    }
    DigitPrefixOfDigits(d);
    ValueOfNatToDecimal(n);
  }

  /** String#to_i reads back what Integer#to_s wrote. */
  lemma ToIOfDecimal(n: int)
    ensures ToI(IntToDecimal(n)) == n
  {
    var s := IntToDecimal(n);
    assert SkipSpace(s) == s;
    if n < 0 {
      assert s[1..] == NatToDecimal(-n);
      UnsignedOfDecimal(-n);
    } else {
      UnsignedOfDecimal(n);
    }
  }

  /** String#to_i also reads a number written with the "0d" or "0D" prefix. */
  lemma ToIOfRadixDecimal(n: nat, d: char)
    requires d == 'd' || d == 'D'
    ensures ToI(['0', d] + NatToDecimal(n)) == n
  {
    var s := ['0', d] + NatToDecimal(n);
    assert !IsSpace(s[0]);
    assert SkipSpace(s) == s;
    assert SkipRadix(s) == NatToDecimal(n) by {
      assert s[2..] == NatToDecimal(n);
    }
    UnsignedOfDecimal(n);
    assert UnsignedValue(s) == n;
  }

  /** Distinct integers are written differently. */
  lemma DecimalInjective(m: int, n: int)
    requires IntToDecimal(m) == IntToDecimal(n)
    ensures m == n
  {
    ToIOfDecimal(m);
    ToIOfDecimal(n);
  }
}

=== FILE: percent_codec.dfy ===
/**
 A concrete escape/unescape pair with the properties the query-string theorems ask of
 CGI.escape and CGI.unescape: it shows those assumptions can all hold at once. Space
 becomes '+', and '%', '&', '=' and '+' become their %XX forms.
 */
module PercentCodec {
  import opened QueryString

  function EscapeChar(ch: char): string
  {
    match ch
    case '%' => "%25"
    case '&' => "%26"
    case '=' => "%3D"
    case '+' => "%2B"
    case ' ' => "+"
    case _ => [ch]
  }

  function Escape(s: string): (r: string)
    ensures '&' !in r && '=' !in r
  {
    if |s| == 0 then ""
    else
      EscapeCharClean(s[0]);
      EscapeChar(s[0]) + Escape(s[1..])
  }

  lemma EscapeCharClean(ch: char)
    ensures '&' !in EscapeChar(ch) && '=' !in EscapeChar(ch)
  {
  }

  function Unescape(t: string): string
  {
    if |t| == 0 then ""
    else if t[0] == '+' then " " + Unescape(t[1..])
    else if t[0] == '%' && |t| >= 3 then
      match t[1..3]
      case "25" => "%" + Unescape(t[3..])
      case "26" => "&" + Unescape(t[3..])
      case "3D" => "=" + Unescape(t[3..])
      case "2B" => "+" + Unescape(t[3..])
      case _ => [t[0]] + Unescape(t[1..])
    else [t[0]] + Unescape(t[1..])
  }

  /** Unescaping reads one escaped character back and goes on with the rest. */
  lemma UnescapeStep(ch: char, t: string)
    ensures Unescape(EscapeChar(ch) + t) == [ch] + Unescape(t)
  {
    var u := EscapeChar(ch) + t;
    if |EscapeChar(ch)| == 3 {
      assert u[1..3] == EscapeChar(ch)[1..3];
      assert u[3..] == t;
    } else {
      assert u[1..] == t;
    }
  }

  lemma {:induction false} UnescapeEscape(s: string)
    ensures Unescape(Escape(s)) == s
  {
    if |s| > 0 {
      var rest := Escape(s[1..]);
      assert Escape(s) == EscapeChar(s[0]) + rest;
      UnescapeStep(s[0], rest);
      UnescapeEscape(s[1..]);
      assert Unescape(Escape(s)) == [s[0]] + s[1..];
      assert s == [s[0]] + s[1..];
    }
  }

  /** The pair meets every assumption the round-trip theorems make of the codec. */
  lemma PercentCodecWellBehaved()
    ensures WellBehaved(Codec(Escape, Unescape))
  {
    forall s: string
      ensures Unescape(Escape(s)) == s
    {
      UnescapeEscape(s);
    }
  }
}

=== FILE: query_string.dfy ===
/**
 hash_to_query_string and parse_query_string: a nested hash written as
 application/x-www-form-urlencoded text, and such text read back into a flat hash.
 */
module QueryString {
  import opened Wrappers
  import opened Collections
  import opened Text
  import opened RubyHash

  /** CGI.escape and CGI.unescape from Ruby's standard library. Their internals are not
      part of this model: they are given as a pair of functions. */
  datatype Codec = Codec(escape: string -> string, unescape: string -> string)

  /** What the properties below need of the pair: unescape undoes escape, escaped text
      holds neither delimiter, and the empty string escapes to itself. */
  ghost predicate WellBehaved(c: Codec)
  {
    && c.escape("") == ""
    && (forall s :: c.unescape(c.escape(s)) == s)
    && (forall s :: '&' !in c.escape(s) && '=' !in c.escape(s))
  }

  /** url_encode: CGI.escape of the text. */
  function UrlEncode(c: Codec, text: string): string
  {
    c.escape(text)
  }

  /** "key=value" for one leaf, both sides escaped. */
  function Couplet(c: Codec, leaf: Leaf): string
  {
    UrlEncode(c, leaf.path) + "=" + UrlEncode(c, ToS(leaf.value))
  }

  /** The text one entry contributes: a nested hash is serialised under its full key,
      any other value becomes one couplet. */
  function Piece(c: Codec, e: Entry, ns: Option<string>): string
    decreases e
  {
    match e.value
    case Hash(sub) => HashToQueryString(c, sub, Some(FullKey(ns, e.key)))
    case _ => Couplet(c, Leaf(FullKey(ns, e.key), e.value))
  }

  function Pieces(c: Codec, h: seq<Entry>, ns: Option<string>): (r: seq<string>)
    ensures |r| == |h|
    decreases h, 0
  {
    if |h| == 0 then [] else [Piece(c, h[0], ns)] + Pieces(c, h[1..], ns)
  }

  /** hash_to_query_string: the pieces of every entry, sorted, joined with '&'. */
  function HashToQueryString(c: Codec, h: seq<Entry>, ns: Option<string>): string
    decreases h, 1
  {
    Join(Sort(Pieces(c, h, ns)), "&")
  }

  /** Why a couplet cannot be stored: CGI.unescape(nil) raises when it lacks a key or a
      value, and Ruby 1.8's to_sym raises when its key unescapes to text that cannot be
      a symbol. */
  datatype ParseError = NilPart(couplet: string) | BadKey(couplet: string)

  /** The couplet's key and value, unescaped: pair[0] and pair[1] of split('='). That is
      the text before the first '=' and the text from there to the next '=', so
      "a=b=c" drops "c". None when there is no value ("a", "a=", "="), or when the key
      unescapes to text that cannot become a symbol ("=x", "a%00b=x"). */
  function Decouple(c: Codec, couplet: string): (r: Option<(string, string)>)
    ensures r.Some? ==> Symbolizable(r.value.0)
  {
    var pair := Split(couplet, '=');
    if |pair| < 2 || !Symbolizable(c.unescape(pair[0])) then None
    else Some((c.unescape(pair[0]), c.unescape(pair[1])))
  }

  /** What Decouple reads, stated without split: a couplet decouples exactly when
      something other than '=' follows its first '=' and its key unescapes to text that
      can become a symbol; the key is then the text before the first '=' and the value the
      text from there to the next '='. */
  lemma DecoupleReadsFirstPair(c: Codec, couplet: string)
    ensures Decouple(c, couplet).Some? <==>
      HasOther(AfterFirst(couplet, '='), '=') && Symbolizable(c.unescape(TakeUntil(couplet, '=')))
    ensures Decouple(c, couplet).Some? ==>
      Decouple(c, couplet).value
        == (c.unescape(TakeUntil(couplet, '=')), c.unescape(TakeUntil(AfterFirst(couplet, '='), '=')))
  {
    SplitAtFirst(couplet, '=');
  }

  /** The error a couplet that does not decouple raises: the key is looked at first, so
      a key that cannot become a symbol raises even when the value is missing too. A
      couplet of '='s only has no key at all, and CGI.unescape(nil) raises. */
  function CoupletError(c: Codec, couplet: string): (e: ParseError)
    requires Decouple(c, couplet).None?
    ensures e.couplet == couplet
    ensures e.BadKey? <==> HasOther(couplet, '=') && !Symbolizable(c.unescape(TakeUntil(couplet, '=')))
  {
    var pair := Split(couplet, '=');
    SplitAtFirst(couplet, '=');
    if |pair| >= 1 && !Symbolizable(c.unescape(pair[0])) then BadKey(couplet) else NilPart(couplet)
  }

  function OptionToSeq<T>(o: Option<T>): seq<T>
  {
    match o
    case None => []
    case Some(v) => [v]
  }

  function Decoder(c: Codec): string -> seq<(string, string)>
  {
    (s: string) => OptionToSeq(Decouple(c, s))
  }

  /** The decoded key/value pairs of the couplets that have both parts, in order. */
  function Pairs(c: Codec, couplets: seq<string>): seq<(string, string)>
  {
    ConcatMap(Decoder(c), couplets)
  }

  predicate AllDecouple(c: Codec, couplets: seq<string>)
  {
    forall i :: 0 <= i < |couplets| ==> Decouple(c, couplets[i]).Some?
  }

  /** The value of the last pair whose key is x. */
  function LastFor(pairs: seq<(string, string)>, x: string): (r: Option<string>)
    ensures r.None? <==> forall i :: 0 <= i < |pairs| ==> pairs[i].0 != x
    ensures r.Some? ==> exists i :: 0 <= i < |pairs| && pairs[i] == (x, r.value)
                                    && forall j :: i < j < |pairs| ==> pairs[j].0 != x
  {
    if |pairs| == 0 then None
    else if pairs[|pairs| - 1].0 == x then Some(pairs[|pairs| - 1].1)
    else
      var r := LastFor(pairs[..|pairs| - 1], x);
      LastForStep(pairs, x, r);
      r
  }

  /** A last pair with another key leaves the answer for x to the pairs before it. */
  lemma LastForStep(pairs: seq<(string, string)>, x: string, r: Option<string>)
    requires |pairs| > 0 && pairs[|pairs| - 1].0 != x
    requires var init := pairs[..|pairs| - 1];
      && (r.None? <==> forall i :: 0 <= i < |init| ==> init[i].0 != x)
      && (r.Some? ==> exists i :: 0 <= i < |init| && init[i] == (x, r.value)
                                  && forall j :: i < j < |init| ==> init[j].0 != x)
    ensures r.None? <==> forall i :: 0 <= i < |pairs| ==> pairs[i].0 != x
    ensures r.Some? ==> exists i :: 0 <= i < |pairs| && pairs[i] == (x, r.value)
                                    && forall j :: i < j < |pairs| ==> pairs[j].0 != x
  {
    var init := pairs[..|pairs| - 1];
    assert forall i :: 0 <= i < |init| ==> init[i] == pairs[i];
    if r.Some? {
      var i :| 0 <= i < |init| && init[i] == (x, r.value) && forall j :: i < j < |init| ==> init[j].0 != x;
      assert pairs[i] == (x, r.value);
    }
  }

  function AsScalar(o: Option<string>): Option<Value>
  {
    match o
    case None => None
    case Some(t) => Some(Scalar(t))
  }

  /** The inject loop: store each couplet's value under its key as a symbol, stopping at
      the first couplet that lacks a part. */
  function Inject(c: Codec, couplets: seq<string>, acc: seq<Entry>): (r: Result<seq<Entry>, ParseError>)
    ensures r.Success? <==> AllDecouple(c, couplets)
    ensures r.Success? && KeysDistinct(acc) ==> KeysDistinct(r.value)
    ensures r.Success? && (forall k :: k in Keys(acc) ==> k.Sym?) ==> forall k :: k in Keys(r.value) ==> k.Sym?
  {
    if |couplets| == 0 then Success(acc)
    else
      match Decouple(c, couplets[0])
      case None => Failure(CoupletError(c, couplets[0]))
      case Some(kv) => Inject(c, couplets[1..], Store(acc, Sym(kv.0), Scalar(kv.1)))
  }

  /** After the loop, the value under a symbol key is that of the last couplet with that
      key, or what the accumulator held when no couplet has it. */
  lemma {:induction false} InjectLookup(c: Codec, couplets: seq<string>, acc: seq<Entry>, x: string)
    requires Inject(c, couplets, acc).Success?
    ensures Lookup(Inject(c, couplets, acc).value, Sym(x))
         == if LastFor(Pairs(c, couplets), x).Some? then AsScalar(LastFor(Pairs(c, couplets), x))
            else Lookup(acc, Sym(x))
  {
    if |couplets| > 0 {
      var kv := Decouple(c, couplets[0]).value;
      var acc' := Store(acc, Sym(kv.0), Scalar(kv.1));
      InjectLookup(c, couplets[1..], acc', x);
      PairsCons(c, couplets);
      LastForCons(kv, Pairs(c, couplets[1..]), x);
    }
  }

  lemma PairsCons(c: Codec, couplets: seq<string>)
    requires |couplets| > 0
    ensures Pairs(c, couplets) == OptionToSeq(Decouple(c, couplets[0])) + Pairs(c, couplets[1..])
  {
  }

  /** Reading pairs front to back: a later pair with key x takes precedence. */
  lemma {:induction false} LastForCons(p: (string, string), ps: seq<(string, string)>, x: string)
    ensures LastFor([p] + ps, x) == if LastFor(ps, x).Some? then LastFor(ps, x)
                                    else if p.0 == x then Some(p.1) else None
  {
    if |ps| > 0 {
      var last := ps[|ps| - 1];
      ConsInit(p, ps);
      if last.0 != x {
        LastForCons(p, ps[..|ps| - 1], x);
      }
    }
  }

  /** parse_query_string: split on '&', split each couplet on '=', unescape both halves and
      store them in a fresh hash, the key as a symbol. A later couplet with the same key
      overwrites the value of an earlier one. */
  function ParseQueryString(c: Codec, qs: string): (r: Result<seq<Entry>, ParseError>)
    ensures r.Success? <==> AllDecouple(c, Split(qs, '&'))
    ensures r.Success? ==> KeysDistinct(r.value)
    ensures r.Success? ==> forall k :: k in Keys(r.value) ==> k.Sym?
    ensures r.Success? ==> forall x {:trigger Lookup(r.value, Sym(x))} ::
      Lookup(r.value, Sym(x)) == AsScalar(LastFor(Pairs(c, Split(qs, '&')), x))
  {
    var r := Inject(c, Split(qs, '&'), []);
    if r.Success? then
      forall x ensures Lookup(r.value, Sym(x)) == AsScalar(LastFor(Pairs(c, Split(qs, '&')), x)) {
        InjectLookup(c, Split(qs, '&'), [], x);
      }
      r
    else r
  }

  // ---------------------------------------------------------------------------------
  // What the serialised text contains

  /** Every nested hash inside h has at least one entry. */
  predicate NoEmptyNestedHash(h: seq<Entry>)
    decreases h
  {
    |h| == 0 || (EntryNoEmptyHash(h[0]) && NoEmptyNestedHash(h[1..]))
  }

  predicate EntryNoEmptyHash(e: Entry)
    decreases e
  {
    match e.value
    case Hash(sub) => |sub| > 0 && NoEmptyNestedHash(sub)
    case _ => true
  }

  function Couplets(c: Codec, leaves: seq<Leaf>): (r: seq<string>)
    ensures |r| == |leaves|
    ensures forall i :: 0 <= i < |leaves| ==> r[i] == Couplet(c, leaves[i])
  {
    if |leaves| == 0 then [] else [Couplet(c, leaves[0])] + Couplets(c, leaves[1..])
  }

  lemma CoupletHasNoAmpersand(c: Codec, leaf: Leaf)
    requires WellBehaved(c)
    ensures '&' !in Couplet(c, leaf)
  {
    assert '&' !in c.escape(leaf.path) && '&' !in c.escape(ToS(leaf.value));
  }

  /** Split on '&', the query string of any hash holds, apart from empty fields (which
      empty nested hashes leave behind), exactly one couplet
      "escape(full key)=escape(value)" per leaf, in some order. */
  lemma {:induction false} QueryFields(c: Codec, h: seq<Entry>, ns: Option<string>)
    requires WellBehaved(c)
    ensures multiset(DropEmpty(Fields(HashToQueryString(c, h, ns), '&')))
         == multiset(Couplets(c, Leaves(h, ns)))
    decreases h, 1
  {
    if |h| == 0 {
      assert HashToQueryString(c, h, ns) == "";
    } else {
      var f := FieldsOn('&');
      var pieces := Pieces(c, h, ns);
      var sorted := Sort(pieces);
      FieldsOfJoinAll(sorted, '&');
      assert "&" == ['&'];
      ConcatMapPermutation(f, sorted, pieces);
      DropEmptyPermutation(ConcatMap(f, sorted), ConcatMap(f, pieces));
      PiecesFields(c, h, ns);
    }
  }

  lemma {:induction false} PiecesFields(c: Codec, h: seq<Entry>, ns: Option<string>)
    requires WellBehaved(c)
    ensures multiset(DropEmpty(ConcatMap(FieldsOn('&'), Pieces(c, h, ns))))
         == multiset(Couplets(c, Leaves(h, ns)))
    decreases h, 0
  {
    if |h| > 0 {
      var f := FieldsOn('&');
      var rest := Pieces(c, h[1..], ns);
      assert Pieces(c, h, ns) == [Piece(c, h[0], ns)] + rest;
      assert ConcatMap(f, Pieces(c, h, ns)) == Fields(Piece(c, h[0], ns), '&') + ConcatMap(f, rest);
      DropEmptyAppend(Fields(Piece(c, h[0], ns), '&'), ConcatMap(f, rest));
      PiecesFields(c, h[1..], ns);
      EntryFields(c, h[0], ns);
      CoupletsAppend(c, EntryLeaves(h[0], ns), Leaves(h[1..], ns));
    }
  }

  lemma {:induction false} EntryFields(c: Codec, e: Entry, ns: Option<string>)
    requires WellBehaved(c)
    ensures multiset(DropEmpty(Fields(Piece(c, e, ns), '&'))) == multiset(Couplets(c, EntryLeaves(e, ns)))
    decreases e
  {
    match e.value {
      case Hash(sub) =>
        QueryFields(c, sub, Some(FullKey(ns, e.key)));
      case _ =>
        var leaf := Leaf(FullKey(ns, e.key), e.value);
        CoupletHasNoAmpersand(c, leaf);
        FieldsOfPlain(Couplet(c, leaf), '&');
        assert Piece(c, e, ns) == Couplet(c, leaf);
        assert Couplets(c, EntryLeaves(e, ns)) == [Couplet(c, leaf)];
        DropEmptySingle(Couplet(c, leaf));
    }
  }

  /** Split on '&', the serialisation of a non-empty hash without empty nested hashes
      consists of exactly one couplet "escape(full key)=escape(value)" per leaf, in some
      order, and of nothing else. */
  lemma {:induction false} ExactQueryFields(c: Codec, h: seq<Entry>, ns: Option<string>)
    requires WellBehaved(c) && |h| > 0 && NoEmptyNestedHash(h)
    ensures multiset(Fields(HashToQueryString(c, h, ns), '&')) == multiset(Couplets(c, Leaves(h, ns)))
    decreases h, 1
  {
    var pieces := Pieces(c, h, ns);
    var sorted := Sort(pieces);
    FieldsOfJoinAll(sorted, '&');
    assert "&" == ['&'];
    ConcatMapPermutation(FieldsOn('&'), sorted, pieces);
    ExactPiecesFields(c, h, ns);
  }

  lemma {:induction false} ExactPiecesFields(c: Codec, h: seq<Entry>, ns: Option<string>)
    requires WellBehaved(c) && NoEmptyNestedHash(h)
    ensures multiset(ConcatMap(FieldsOn('&'), Pieces(c, h, ns))) == multiset(Couplets(c, Leaves(h, ns)))
    decreases h, 0
  {
    if |h| > 0 {
      var f := FieldsOn('&');
      var rest := Pieces(c, h[1..], ns);
      assert Pieces(c, h, ns) == [Piece(c, h[0], ns)] + rest;
      assert ConcatMap(f, Pieces(c, h, ns)) == Fields(Piece(c, h[0], ns), '&') + ConcatMap(f, rest);
      ExactPiecesFields(c, h[1..], ns);
      ExactEntryFields(c, h[0], ns);
      CoupletsAppend(c, EntryLeaves(h[0], ns), Leaves(h[1..], ns));
    }
  }

  lemma {:induction false} ExactEntryFields(c: Codec, e: Entry, ns: Option<string>)
    requires WellBehaved(c) && EntryNoEmptyHash(e)
    ensures multiset(Fields(Piece(c, e, ns), '&')) == multiset(Couplets(c, EntryLeaves(e, ns)))
    decreases e
  {
    match e.value {
      case Hash(sub) =>
        ExactQueryFields(c, sub, Some(FullKey(ns, e.key)));
      case _ =>
        var leaf := Leaf(FullKey(ns, e.key), e.value);
        CoupletHasNoAmpersand(c, leaf);
        FieldsOfPlain(Couplet(c, leaf), '&');
    }
  }

  lemma {:induction false} CoupletsAppend(c: Codec, a: seq<Leaf>, b: seq<Leaf>)
    ensures Couplets(c, a + b) == Couplets(c, a) + Couplets(c, b)
  {
  }

  // ---------------------------------------------------------------------------------
  // Reading the text back

  /** Each leaf as (full key, to_s of its value). */
  function TextPairs(leaves: seq<Leaf>): (r: seq<(string, string)>)
    ensures |r| == |leaves|
    ensures forall i :: 0 <= i < |leaves| ==> r[i] == (leaves[i].path, ToS(leaves[i].value))
  {
    if |leaves| == 0 then [] else [(leaves[0].path, ToS(leaves[0].value))] + TextPairs(leaves[1..])
  }

  /** No key is paired with two different values. */
  predicate Functional(pairs: seq<(string, string)>)
  {
    forall i, j :: 0 <= i < |pairs| && 0 <= j < |pairs| && pairs[i].0 == pairs[j].0 ==> pairs[i].1 == pairs[j].1
  }

  /** Every leaf has a full key that can become a symbol and a value that does not
      print as "". */
  predicate ReadableLeaves(leaves: seq<Leaf>)
  {
    forall i :: 0 <= i < |leaves| ==> Symbolizable(leaves[i].path) && ToS(leaves[i].value) != ""
  }

  /** A couplet written for a leaf decodes to its leaf's full key and text exactly when
      that key can become a symbol and that text is not empty. */
  lemma DecoupleCouplet(c: Codec, leaf: Leaf)
    requires WellBehaved(c)
    ensures Decouple(c, Couplet(c, leaf))
         == if Symbolizable(leaf.path) && ToS(leaf.value) != "" then Some((leaf.path, ToS(leaf.value)))
            else None
  {
    var a := c.escape(leaf.path);
    var b := c.escape(ToS(leaf.value));
    CoupletFields(c, leaf);
    assert c.unescape(a) == leaf.path;
    assert c.unescape(b) == ToS(leaf.value);
    assert c.unescape(c.escape("")) == "";
    if b == "" {
      assert |Split(Couplet(c, leaf), '=')| < 2;
    } else {
      SplitKeepsFields(Couplet(c, leaf), '=');
    }
  }

  /** The case the round trip relies on: the couplet of a readable leaf is not empty and
      decodes to that leaf. */
  lemma ReadableCouplet(c: Codec, leaf: Leaf)
    requires WellBehaved(c) && Symbolizable(leaf.path) && ToS(leaf.value) != ""
    ensures Couplet(c, leaf) != "" && Decouple(c, Couplet(c, leaf)) == Some((leaf.path, ToS(leaf.value)))
  {
    DecoupleCouplet(c, leaf);
  }

  /** Split on '=', a couplet is its escaped key and its escaped text. */
  lemma CoupletFields(c: Codec, leaf: Leaf)
    requires WellBehaved(c)
    ensures Fields(Couplet(c, leaf), '=') == [c.escape(leaf.path), c.escape(ToS(leaf.value))]
  {
    var a := c.escape(leaf.path);
    var b := c.escape(ToS(leaf.value));
    assert Couplet(c, leaf) == a + ['='] + b;
    FieldsAppend(a, b, '=');
    FieldsOfPlain(a, '=');
    FieldsOfPlain(b, '=');
  }

  /** Parsing the couplet of one leaf: the leaf comes back under its key as a symbol when
      the key can become a symbol and the text is not empty. Otherwise to_sym raises
      when there is a key, or a value, to reach it; in the remaining cases a part is
      missing and CGI.unescape(nil) raises. */
  lemma ParseSingleCouplet(c: Codec, leaf: Leaf)
    requires WellBehaved(c)
    ensures ParseQueryString(c, Couplet(c, leaf))
         == if Symbolizable(leaf.path) && ToS(leaf.value) != "" then
              Success([Entry(Sym(leaf.path), Scalar(ToS(leaf.value)))])
            else if !Symbolizable(leaf.path) && (leaf.path != "" || ToS(leaf.value) != "") then
              Failure(BadKey(Couplet(c, leaf)))
            else Failure(NilPart(Couplet(c, leaf)))
  {
    var qs := Couplet(c, leaf);
    var a := c.escape(leaf.path);
    var b := c.escape(ToS(leaf.value));
    CoupletHasNoAmpersand(c, leaf);
    assert qs == a + ['='] + b;
    FieldsOfPlain(qs, '&');
    SplitKeepsFields(qs, '&');
    assert Split(qs, '&') == [qs];
    DecoupleCouplet(c, leaf);
    if Symbolizable(leaf.path) && ToS(leaf.value) != "" {
      assert Inject(c, [qs], []) == Inject(c, [], Store([], Sym(leaf.path), Scalar(ToS(leaf.value))));
    } else {
      assert Inject(c, [qs], []) == Failure(CoupletError(c, qs));
      CoupletFields(c, leaf);
      FieldsHead(qs, '=');
      assert TakeUntil(qs, '=') == a;
      assert c.unescape(a) == leaf.path;
      assert c.unescape(c.escape("")) == "";
      assert b == "" <==> ToS(leaf.value) == "" by {
        assert c.unescape(b) == ToS(leaf.value);
      }
      assert a == "" <==> leaf.path == "";
      CoupletHasOther(qs, a, b);
    }
  }

  lemma CoupletHasOther(qs: string, a: string, b: string)
    requires qs == a + ['='] + b && '=' !in a && '=' !in b
    ensures HasOther(qs, '=') <==> a != "" || b != ""
  {
    if a != "" {
      assert qs[0] == a[0];
    } else if b != "" {
      assert qs[1] == b[0];
    } else {
      assert qs == ['='];
    }
  }

  lemma {:induction false} PairsOfCouplets(c: Codec, leaves: seq<Leaf>)
    requires WellBehaved(c) && ReadableLeaves(leaves)
    ensures Pairs(c, Couplets(c, leaves)) == TextPairs(leaves)
  {
    if |leaves| > 0 {
      var cs := Couplets(c, leaves);
      PairsCons(c, cs);
      assert cs[1..] == Couplets(c, leaves[1..]);
      ReadableCouplet(c, leaves[0]);
      PairsOfCouplets(c, leaves[1..]);
    }
  }

  /** For a table in which no key has two values, the last value of a key does not
      depend on the order of the pairs. */
  lemma LastForPermutation(a: seq<(string, string)>, b: seq<(string, string)>, x: string)
    requires multiset(a) == multiset(b) && Functional(b)
    ensures LastFor(a, x) == LastFor(b, x)
  {
    if LastFor(b, x).Some? {
      var i :| 0 <= i < |b| && b[i] == (x, LastFor(b, x).value);
      assert b[i] in multiset(a);
      var ia :| 0 <= ia < |a| && a[ia] == (x, LastFor(a, x).value);
      assert a[ia] in multiset(b);
    } else {
      forall ia | 0 <= ia < |a| ensures a[ia].0 != x {
        assert a[ia] in multiset(b);
      }
    }
  }

  /** The serialisation of a hash without empty nested hashes, empty values or full keys
      that cannot become symbols splits into couplets that all decode, and decode to the
      leaves' (full key, text) pairs. */
  lemma {:induction false} SerialisedPairs(c: Codec, h: seq<Entry>)
    requires WellBehaved(c) && |h| > 0
    requires NoEmptyNestedHash(h)
    requires ReadableLeaves(Leaves(h, None))
    ensures AllDecouple(c, Split(HashToQueryString(c, h, None), '&'))
    ensures multiset(Pairs(c, Split(HashToQueryString(c, h, None), '&'))) == multiset(TextPairs(Leaves(h, None)))
  {
    var leaves := Leaves(h, None);
    var qs := HashToQueryString(c, h, None);
    ExactQueryFields(c, h, None);
    var fields := Fields(qs, '&');
    var cs := Couplets(c, leaves);
    forall i | 0 <= i < |fields| ensures fields[i] != "" && Decouple(c, fields[i]).Some? {
      assert fields[i] in multiset(cs);
      var j :| 0 <= j < |cs| && cs[j] == fields[i];
      ReadableCouplet(c, leaves[j]);
    }
    SplitKeepsFields(qs, '&');
    ConcatMapPermutation(Decoder(c), fields, cs);
    PairsOfCouplets(c, leaves);
  }

  /** Round trip: parse_query_string reads back, under each leaf's full key, the text of
      that leaf's value, provided no nested hash is empty, every full key can become a
      symbol, no value prints as the empty string and no full key carries two different
      values. */
  lemma {:induction false} RoundTrip(c: Codec, h: seq<Entry>)
    requires WellBehaved(c)
    requires NoEmptyNestedHash(h)
    requires ReadableLeaves(Leaves(h, None))
    requires Functional(TextPairs(Leaves(h, None)))
    ensures ParseQueryString(c, HashToQueryString(c, h, None)).Success?
    ensures forall x {:trigger LastFor(TextPairs(Leaves(h, None)), x)} ::
      Lookup(ParseQueryString(c, HashToQueryString(c, h, None)).value, Sym(x))
        == AsScalar(LastFor(TextPairs(Leaves(h, None)), x))
  {
    var pairs := TextPairs(Leaves(h, None));
    var qs := HashToQueryString(c, h, None);
    if |h| == 0 {
      assert qs == "";
      assert Split(qs, '&') == [];
    } else {
      SerialisedPairs(c, h);
      forall x ensures LastFor(Pairs(c, Split(qs, '&')), x) == LastFor(pairs, x) {
        LastForPermutation(Pairs(c, Split(qs, '&')), pairs, x);
      }
    }
  }

  // ---------------------------------------------------------------------------------
  // Insertion order does not matter

  /** b holds the entries of a in some order, with every nested hash likewise reordered. */
  ghost predicate Reordered(a: seq<Entry>, b: seq<Entry>)
    decreases a
  {
    && |a| == |b|
    && (|a| == 0 || exists j :: 0 <= j < |b| && SameEntry(a[0], b[j]) && Reordered(a[1..], b[..j] + b[j + 1..]))
  }

  ghost predicate SameEntry(x: Entry, y: Entry)
    decreases x
  {
    && x.key == y.key
    && match x.value
       case Hash(sub) => y.value.Hash? && Reordered(sub, y.value.entries)
       case _ => x.value == y.value
  }

  /** hash_to_query_string does not depend on the order in which entries were inserted,
      at any level of nesting. */
  lemma {:induction false} OrderIndependent(c: Codec, a: seq<Entry>, b: seq<Entry>, ns: Option<string>)
    requires Reordered(a, b)
    ensures HashToQueryString(c, a, ns) == HashToQueryString(c, b, ns)
    decreases a, 1
  {
    ReorderedPieces(c, a, b, ns);
    SortPermutation(Pieces(c, a, ns), Pieces(c, b, ns));
  }

  lemma {:induction false} ReorderedPieces(c: Codec, a: seq<Entry>, b: seq<Entry>, ns: Option<string>)
    requires Reordered(a, b)
    ensures multiset(Pieces(c, a, ns)) == multiset(Pieces(c, b, ns))
    decreases a, 0
  {
    if |a| > 0 {
      var j :| 0 <= j < |b| && SameEntry(a[0], b[j]) && Reordered(a[1..], b[..j] + b[j + 1..]);
      SameEntryPiece(c, a[0], b[j], ns);
      ReorderedPieces(c, a[1..], b[..j] + b[j + 1..], ns);
      PiecesSplice(c, b, j, ns);
      MultisetSplice(Pieces(c, a[1..], ns), Pieces(c, b[..j], ns), Pieces(c, b[j + 1..], ns), Piece(c, a[0], ns));
    }
  }

  lemma PiecesSplice(c: Codec, b: seq<Entry>, j: nat, ns: Option<string>)
    requires j < |b|
    ensures Pieces(c, b, ns) == Pieces(c, b[..j], ns) + [Piece(c, b[j], ns)] + Pieces(c, b[j + 1..], ns)
    ensures Pieces(c, b[..j] + b[j + 1..], ns) == Pieces(c, b[..j], ns) + Pieces(c, b[j + 1..], ns)
  {
    assert b == b[..j] + [b[j]] + b[j + 1..];
    PiecesAppend(c, b[..j] + [b[j]], b[j + 1..], ns);
    PiecesAppend(c, b[..j], [b[j]], ns);
    PiecesAppend(c, b[..j], b[j + 1..], ns);
  }

  lemma MultisetSplice<T>(p: seq<T>, q: seq<T>, r: seq<T>, x: T)
    requires multiset(p) == multiset(q + r)
    ensures multiset([x] + p) == multiset(q + [x] + r)
  {
  }

  lemma {:induction false} SameEntryPiece(c: Codec, x: Entry, y: Entry, ns: Option<string>)
    requires SameEntry(x, y)
    ensures Piece(c, x, ns) == Piece(c, y, ns)
    decreases x
  {
    match x.value {
      case Hash(sub) =>
        OrderIndependent(c, sub, y.value.entries, Some(FullKey(ns, x.key)));
      case _ =>
    }
  }

  lemma {:induction false} PiecesAppend(c: Codec, a: seq<Entry>, b: seq<Entry>, ns: Option<string>)
    ensures Pieces(c, a + b, ns) == Pieces(c, a, ns) + Pieces(c, b, ns)
  {
    if |a| > 0 {
      assert (a + b)[1..] == a[1..] + b;
      PiecesAppend(c, a[1..], b, ns);
    } else {
      assert a + b == b;
    }
  }

  // ---------------------------------------------------------------------------------
  // Empty nested hashes

  /** As written, an empty nested hash contributes an empty piece, which sorts first and
      leaves an empty couplet in front of the first '&'; parse_query_string then fails on
      the text hash_to_query_string produced. */
  lemma EmptyNestedHashBreaksParse(c: Codec, v: string)
    requires WellBehaved(c)
    ensures var h := [Entry(Sym("a"), Hash([])), Entry(Sym("b"), Scalar(v))];
            && HashToQueryString(c, h, None) == "&" + Couplet(c, Leaf("b", Scalar(v)))
            && ParseQueryString(c, HashToQueryString(c, h, None)).Failure?
  {
    var h := [Entry(Sym("a"), Hash([])), Entry(Sym("b"), Scalar(v))];
    var p := Couplet(c, Leaf("b", Scalar(v)));
    EmptyNestedHashOutput(c, h, 0, None);
    assert h[..0] + h[1..] == [h[1]];
    assert Pieces(c, [h[1]], None) == [p];
    SortSorted([p]);
    CoupletHasNoAmpersand(c, Leaf("b", Scalar(v)));
    assert ("&" + p)[1] == p[0] != '&';
    LeadingEmptyCoupletFails(c, "&" + p);
  }

  /** An empty nested hash anywhere in a hash of two or more entries adds an empty piece,
      which sorts first: the text is '&' followed by what the other entries give. */
  lemma EmptyNestedHashOutput(c: Codec, h: seq<Entry>, j: nat, ns: Option<string>)
    requires j < |h| && |h| > 1 && h[j].value == Hash([])
    ensures HashToQueryString(c, h, ns) == "&" + HashToQueryString(c, h[..j] + h[j + 1..], ns)
  {
    var q := Pieces(c, h[..j] + h[j + 1..], ns);
    var e := Piece(c, h[j], ns);
    PiecesSplice(c, h, j, ns);
    assert |e| == 0 by {
      assert e == HashToQueryString(c, [], Some(FullKey(ns, h[j].key)));
    }
    MultisetSplice(Pieces(c, h[..j], ns) + Pieces(c, h[j + 1..], ns), Pieces(c, h[..j], ns), Pieces(c, h[j + 1..], ns), e);
    SortPermutation(Pieces(c, h, ns), [e] + q);
    SortEmptyFirst(e, q);
    assert |Sort(q)| == |q| by {
      assert multiset(Sort(q)) == multiset(q);
    }
    JoinEmptyFirst(e, Sort(q), "&");
  }

  /** A query string that starts with '&' and holds more than '&'s has an empty first
      couplet, and parsing raises on it. */
  lemma LeadingEmptyCoupletFails(c: Codec, qs: string)
    requires |qs| > 0 && qs[0] == '&' && HasOther(qs, '&')
    ensures ParseQueryString(c, qs).Failure?
    ensures ParseQueryString(c, qs).error == NilPart("")
  {
    SplitAtFirst(qs, '&');
    assert Split(qs, '&')[0] == "";
    assert Decouple(c, "").None?;
    assert !HasOther("", '=');
  }

  /** A query string made of '&'s only (the empty string included) splits into no couplet
      and parses to the empty hash. */
  lemma OnlyAmpersandsParseEmpty(c: Codec, qs: string)
    requires !HasOther(qs, '&')
    ensures ParseQueryString(c, qs) == Success([])
  {
    SplitAtFirst(qs, '&');
  }

  /** Removes every nested hash that holds no leaf, at every level. */
  function Prune(h: seq<Entry>): (r: seq<Entry>)
    ensures NoEmptyNestedHash(r)
    ensures forall ns :: Leaves(r, ns) == Leaves(h, ns)
    decreases h
  {
    if |h| == 0 then []
    else
      var head := PruneEntry(h[0]);
      var rest := Prune(h[1..]);
      PrunedPrefix(head, rest);
      forall ns ensures Leaves(head + rest, ns) == Leaves(h, ns) {
        LeavesAppend(head, rest, ns);
      }
      head + rest
  }

  function PruneEntry(e: Entry): (r: seq<Entry>)
    ensures |r| <= 1 && (|r| == 1 ==> EntryNoEmptyHash(r[0]))
    ensures forall ns :: Leaves(r, ns) == EntryLeaves(e, ns)
    decreases e
  {
    match e.value
    case Hash(sub) =>
      var p := Prune(sub);
      if |p| == 0 then [] else [Entry(e.key, Hash(p))]
    case _ => [e]
  }

  lemma PrunedPrefix(head: seq<Entry>, rest: seq<Entry>)
    requires |head| <= 1 && (|head| == 1 ==> EntryNoEmptyHash(head[0]))
    requires NoEmptyNestedHash(rest)
    ensures NoEmptyNestedHash(head + rest)
  {
    if |head| == 1 {
      assert (head + rest)[1..] == rest;
    } else {
      assert head + rest == rest;
    }
  }

  /** hash_to_query_string with empty nested hashes skipped, so that no empty couplet is
      emitted. Its text reads back to every leaf under its full key. */
  function CompactHashToQueryString(c: Codec, h: seq<Entry>): (qs: string)
    ensures WellBehaved(c) && ReadableLeaves(Leaves(h, None)) && Functional(TextPairs(Leaves(h, None)))
      ==> && ParseQueryString(c, qs).Success?
          && forall x {:trigger LastFor(TextPairs(Leaves(h, None)), x)} ::
               Lookup(ParseQueryString(c, qs).value, Sym(x)) == AsScalar(LastFor(TextPairs(Leaves(h, None)), x))
  {
    PrunedRoundTrip(c, h);
    HashToQueryString(c, Prune(h), None)
  }

  lemma {:induction false} PrunedRoundTrip(c: Codec, h: seq<Entry>)
    ensures WellBehaved(c) && ReadableLeaves(Leaves(h, None)) && Functional(TextPairs(Leaves(h, None)))
      ==> && ParseQueryString(c, HashToQueryString(c, Prune(h), None)).Success?
          && forall x {:trigger LastFor(TextPairs(Leaves(h, None)), x)} ::
               Lookup(ParseQueryString(c, HashToQueryString(c, Prune(h), None)).value, Sym(x))
                 == AsScalar(LastFor(TextPairs(Leaves(h, None)), x))
  {
    if WellBehaved(c) && ReadableLeaves(Leaves(h, None)) && Functional(TextPairs(Leaves(h, None))) {
      RoundTrip(c, Prune(h));
    }
  }

  /** Where hash_to_query_string already reads back, the corrected serialisation writes the
      same text: a hash without empty nested hashes is left as it is by pruning. */
  lemma CompactAgrees(c: Codec, h: seq<Entry>)
    requires NoEmptyNestedHash(h)
    ensures CompactHashToQueryString(c, h) == HashToQueryString(c, h, None)
  {
    PruneKeeps(h);
  }

  /** An entry holding an empty nested hash, wherever it stands, adds nothing to the
      corrected serialisation. */
  lemma CompactDropsEmptyHash(c: Codec, h: seq<Entry>, j: nat)
    requires j < |h| && h[j].value == Hash([])
    ensures CompactHashToQueryString(c, h) == CompactHashToQueryString(c, h[..j] + h[j + 1..])
  {
    PruneDropsEmptyHash(h, j);
  }

  lemma PruneDropsEmptyHash(h: seq<Entry>, j: nat)
    requires j < |h| && h[j].value == Hash([])
    ensures Prune(h) == Prune(h[..j] + h[j + 1..])
  {
    SplitStep(h, j);
    PruneAppend(h[..j], h[j..]);
    PruneAppend(h[..j], h[j + 1..]);
    PruneEmptyHead(h[j..]);
  }

  lemma PruneEmptyHead(t: seq<Entry>)
    requires |t| > 0 && t[0].value == Hash([])
    ensures Prune(t) == Prune(t[1..])
  {
    assert PruneEntry(t[0]) == [];
  }

  /** The corrected serialisation of {a: {}, b: v} is the couplet for b alone. */
  lemma CompactSkipsEmptyHash(c: Codec, v: string)
    ensures CompactHashToQueryString(c, [Entry(Sym("a"), Hash([])), Entry(Sym("b"), Scalar(v))])
         == Couplet(c, Leaf("b", Scalar(v)))
  {
    var h := [Entry(Sym("a"), Hash([])), Entry(Sym("b"), Scalar(v))];
    var e := h[1];
    CompactDropsEmptyHash(c, h, 0);
    assert h[..0] + h[1..] == [e];
    SingleEntryNoEmptyHash(e);
    CompactAgrees(c, [e]);
    SingleLeafQueryString(c, e, None);
  }

  lemma SingleEntryNoEmptyHash(e: Entry)
    requires !e.value.Hash?
    ensures NoEmptyNestedHash([e])
  {
    assert [e][1..] == [];
  }

  /** A hash with a single non-Hash entry serialises to that entry's couplet. */
  lemma SingleLeafQueryString(c: Codec, e: Entry, ns: Option<string>)
    requires !e.value.Hash?
    ensures HashToQueryString(c, [e], ns) == Couplet(c, Leaf(FullKey(ns, e.key), e.value))
  {
    var p := Piece(c, e, ns);
    assert [e][1..] == [];
    assert Pieces(c, [e], ns) == [p];
    SortSorted([p]);
  }

  lemma {:induction false} PruneKeeps(h: seq<Entry>)
    requires NoEmptyNestedHash(h)
    ensures Prune(h) == h
    decreases h
  {
    if |h| > 0 {
      PruneEntryKeeps(h[0]);
      PruneKeeps(h[1..]);
    }
  }

  lemma {:induction false} PruneEntryKeeps(e: Entry)
    requires EntryNoEmptyHash(e)
    ensures PruneEntry(e) == [e]
    decreases e
  {
    match e.value
    case Hash(sub) => PruneKeeps(sub);
    case _ =>
  }

  lemma {:induction false} PruneAppend(a: seq<Entry>, b: seq<Entry>)
    ensures Prune(a + b) == Prune(a) + Prune(b)
  {
    if |a| > 0 {
      assert (a + b)[0] == a[0];
      assert (a + b)[1..] == a[1..] + b;
      PruneAppend(a[1..], b);
    } else {
      assert a + b == b;
    }
  }
}

=== FILE: ruby_hash.dfy ===
/**
 The values the utility functions take apart: Ruby hashes whose keys are strings or
 symbols and whose values are nil, scalars, arrays or further hashes.
 A Ruby Hash is modelled as the sequence of its entries in the order `each` visits them.
 */
module RubyHash {
  import opened Wrappers
  import opened Collections

  /** A hash key. Both kinds print as their name ("#{key}", key.to_s). */
  datatype Key = Str(name: string) | Sym(name: string)

  /** Ruby 1.8's String#to_sym raises ArgumentError on the empty string and on text that
      holds a NUL character; any other text becomes a symbol. */
  predicate Symbolizable(name: string)
  {
    name != "" && '\0' !in name
  }

  /** Scalar stands for any other object (String, Integer, true, ...) through its to_s. */
  datatype Value =
    | Nil
    | Scalar(text: string)
    | List(items: seq<Value>)
    | Hash(entries: seq<Entry>)

  datatype Entry = Entry(key: Key, value: Value)

  /** to_s as Ruby 1.8 defines it: nil prints empty, an Array joins its elements'
      strings, a Hash joins each key's and value's strings. */
  function ToS(v: Value): string
  {
    match v
    case Nil => ""
    case Scalar(t) => t
    case List(items) => ListToS(items)
    case Hash(entries) => EntriesToS(entries)
  }

  function ListToS(items: seq<Value>): string
  {
    if |items| == 0 then "" else ToS(items[0]) + ListToS(items[1..])
  }

  /** An Array prints as its parts printed one after the other: concatenating two arrays
      concatenates their texts. */
  lemma {:induction false} ListToSAppend(a: seq<Value>, b: seq<Value>)
    ensures ListToS(a + b) == ListToS(a) + ListToS(b)
  {
    if |a| > 0 {
      assert (a + b)[0] == a[0] && (a + b)[1..] == a[1..] + b;
      ListToSAppend(a[1..], b);
    } else {
      assert a + b == b;
    }
  }

  function EntriesToS(h: seq<Entry>): string
  {
    if |h| == 0 then "" else EntryToS(h[0]) + EntriesToS(h[1..])
  }

  function EntryToS(e: Entry): string
  {
    e.key.name + ToS(e.value)
  }

  function Keys(h: seq<Entry>): (ks: set<Key>)
    ensures forall i :: 0 <= i < |h| ==> h[i].key in ks
  {
    if |h| == 0 then {} else {h[0].key} + Keys(h[1..])
  }

  /** Ruby never holds two entries under one key. */
  predicate KeysDistinct(h: seq<Entry>)
  {
    forall i, j :: 0 <= i < j < |h| ==> h[i].key != h[j].key
  }

  /** Hash#[]: the value stored under k, if any. */
  function Lookup(h: seq<Entry>, k: Key): (r: Option<Value>)
    ensures r.Some? <==> k in Keys(h)
    ensures r.Some? ==> Entry(k, r.value) in h
  {
    if |h| == 0 then None
    else if h[0].key == k then Some(h[0].value)
    else Lookup(h[1..], k)
  }

  /** A hash has distinct keys exactly when its first key is not repeated and its rest
      has distinct keys. */
  lemma KeysDistinctCons(h: seq<Entry>)
    requires |h| > 0
    ensures KeysDistinct(h) <==> h[0].key !in Keys(h[1..]) && KeysDistinct(h[1..])
  {
    if KeysDistinct(h) && h[0].key in Keys(h[1..]) {
      var i := KeyIndex(h[1..], h[0].key);
      assert false;
    }
  }

  /** Where a key of h sits. */
  lemma KeyIndex(h: seq<Entry>, k: Key) returns (i: nat)
    requires k in Keys(h)
    ensures i < |h| && h[i].key == k
  {
    if h[0].key == k {
      i := 0;
    } else {
      var j := KeyIndex(h[1..], k);
      i := j + 1;
    }
  }

  /** A key no entry carries is not among the keys. */
  lemma {:induction false} AbsentKey(h: seq<Entry>, k: Key)
    requires forall i :: 0 <= i < |h| ==> h[i].key != k
    ensures k !in Keys(h)
  {
    if |h| > 0 {
      AbsentKey(h[1..], k);
    }
  }

  /** Hash#[]=: overwrite the value of an existing key where it stands, or append. */
  function Store(h: seq<Entry>, k: Key, v: Value): (r: seq<Entry>)
    ensures Lookup(r, k) == Some(v)
    ensures forall k' :: k' != k ==> Lookup(r, k') == Lookup(h, k')
    ensures Keys(r) == Keys(h) + {k}
    ensures KeysDistinct(h) ==> KeysDistinct(r)
  {
    if |h| == 0 then [Entry(k, v)]
    else if h[0].key == k then
      assert ([Entry(k, v)] + h[1..])[1..] == h[1..];
      KeysDistinctCons(h);
      [Entry(k, v)] + h[1..]
    else
      var t := Store(h[1..], k, v);
      assert ([h[0]] + t)[1..] == t;
      KeysDistinctCons(h);
      [h[0]] + t
  }

  /** Storing a new key appends it; storing an existing one adds no other entry. */
  lemma StoreEntries(h: seq<Entry>, k: Key, v: Value)
    ensures k !in Keys(h) ==> Store(h, k, v) == h + [Entry(k, v)]
    ensures forall e :: e in Store(h, k, v) ==> e in h || e == Entry(k, v)
  {
    if k !in Keys(h) {
      StoreAppends(h, k, v);
    }
    StoreAddsOnly(h, k, v);
  }

  lemma {:induction false} StoreAppends(h: seq<Entry>, k: Key, v: Value)
    requires k !in Keys(h)
    ensures Store(h, k, v) == h + [Entry(k, v)]
  {
    if |h| > 0 {
      assert h[0].key != k;
      StoreAppends(h[1..], k, v);
      assert Store(h, k, v) == [h[0]] + Store(h[1..], k, v);
      ConsAppendLast(h, Entry(k, v));
    }
  }

  lemma {:induction false} StoreAddsOnly(h: seq<Entry>, k: Key, v: Value)
    ensures forall e :: e in Store(h, k, v) ==> e in h || e == Entry(k, v)
  {
    if |h| > 0 && h[0].key != k {
      StoreAddsOnly(h[1..], k, v);
      assert Store(h, k, v) == [h[0]] + Store(h[1..], k, v);
      assert h == [h[0]] + h[1..];
    }
  }

  /** Hash#delete: remove the entry under k, keeping the others in order. */
  function Delete(h: seq<Entry>, k: Key): (r: seq<Entry>)
    ensures forall k' :: k' != k ==> Lookup(r, k') == Lookup(h, k')
    ensures forall e :: e in h && e.key != k ==> e in r
    ensures forall e :: e in r ==> e in h
    ensures KeysDistinct(h) ==> KeysDistinct(r) && Keys(r) == Keys(h) - {k}
  {
    if |h| == 0 then []
    else if h[0].key == k then
      KeysDistinctCons(h);
      h[1..]
    else
      var t := Delete(h[1..], k);
      assert ([h[0]] + t)[1..] == t;
      KeysDistinctCons(h);
      [h[0]] + t
  }

  /** The name a key gets under a namespace: "namespace[key]", or the key alone at the top. */
  function FullKey(ns: Option<string>, key: Key): string
  {
    match ns
    case None => key.name
    case Some(n) => n + "[" + key.name + "]"
  }

  /** A non-Hash value reached through nested hashes, with its bracketed name. */
  datatype Leaf = Leaf(path: string, value: Value)

  /** Every non-Hash value inside h, in insertion order, named under namespace ns.
      An empty nested hash contributes nothing. */
  function Leaves(h: seq<Entry>, ns: Option<string>): seq<Leaf>
  {
    if |h| == 0 then [] else EntryLeaves(h[0], ns) + Leaves(h[1..], ns)
  }

  function EntryLeaves(e: Entry, ns: Option<string>): seq<Leaf>
  {
    match e.value
    case Hash(sub) => Leaves(sub, Some(FullKey(ns, e.key)))
    case _ => [Leaf(FullKey(ns, e.key), e.value)]
  }

  lemma {:induction false} LeavesAppend(a: seq<Entry>, b: seq<Entry>, ns: Option<string>)
    ensures Leaves(a + b, ns) == Leaves(a, ns) + Leaves(b, ns)
  {
    if |a| > 0 {
      assert (a + b)[1..] == a[1..] + b;
      LeavesAppend(a[1..], b, ns);
    } else {
      assert a + b == b;
    }
  }
}

=== FILE: status_codes.dfy ===
/** raise_exception_for_status_code: the error a gateway HTTP status turns into. */
module StatusCodes {
  import opened Numerals

  /** The exception classes raised for a status. */
  datatype GatewayError =
    | AuthenticationError
    | AuthorizationError
    | NotFoundError
    | ServerError
    | DownForMaintenanceError
    | UnexpectedError(message: string)

  const UnexpectedPrefix: string := "Unexpected HTTP_RESPONSE "

  /** The case analysis on status_code.to_i. There is no normal return: the result is the
      error raised. 401, 403, 404, 500 and 503 each have their own error; any other code
      raises UnexpectedError whose message ends with the code written in decimal. */
  function ErrorForCode(code: int): (e: GatewayError)
    ensures e == AuthenticationError <==> code == 401
    ensures e == AuthorizationError <==> code == 403
    ensures e == NotFoundError <==> code == 404
    ensures e == ServerError <==> code == 500
    ensures e == DownForMaintenanceError <==> code == 503
    ensures e.UnexpectedError? <==> code !in {401, 403, 404, 500, 503}
    ensures e.UnexpectedError? ==>
      && |e.message| > |UnexpectedPrefix|
      && e.message[..|UnexpectedPrefix|] == UnexpectedPrefix
      && ToI(e.message[|UnexpectedPrefix|..]) == code
  {
    match code
    case 401 => AuthenticationError
    case 403 => AuthorizationError
    case 404 => NotFoundError
    case 500 => ServerError
    case 503 => DownForMaintenanceError
    case _ =>
      var digits := IntToDecimal(code);
      ToIOfDecimal(code);
      assert (UnexpectedPrefix + digits)[|UnexpectedPrefix|..] == digits;
      UnexpectedError(UnexpectedPrefix + digits)
  }

  /** raise_exception_for_status_code for the status as Net::HTTP reports it, as text:
      the code is read with String#to_i first. */
  function RaiseExceptionForStatusCode(status: string): GatewayError
  {
    ErrorForCode(ToI(status))
  }

  /** Different codes raise different errors: the five known codes have their own kinds,
      and every other code is recoverable from the message. */
  lemma ErrorForCodeInjective(a: int, b: int)
    requires ErrorForCode(a) == ErrorForCode(b)
    ensures a == b
  {
  }

  /** A status written as Integer#to_s writes it is read back as that code. */
  lemma StatusTextReadsCode(code: int)
    ensures RaiseExceptionForStatusCode(IntToDecimal(code)) == ErrorForCode(code)
  {
    ToIOfDecimal(code);
  }

  /** The same for a status written with the "0d" radix prefix: "0d404" raises
      NotFoundError. */
  lemma RadixStatusReadsCode(code: nat)
    ensures RaiseExceptionForStatusCode("0d" + NatToDecimal(code)) == ErrorForCode(code)
  {
    assert "0d" == ['0', 'd'];
    ToIOfRadixDecimal(code, 'd');
  }
}

=== FILE: text.dfy ===
/**
 Strings as the library uses them: Ruby's String comparison, Array#sort over strings,
 Array#join and String#split with a one-character separator.
 */
module Text {
  import opened Collections

  /** Ruby's String#<=> read as "a sorts no later than b": lexicographic on characters,
      a proper prefix first. (Comparing UTF-8 bytes, as Ruby does, orders code points
      the same way.) */
  predicate Below(a: string, b: string)
  {
    |a| == 0 || (|b| > 0 && (a[0] < b[0] || (a[0] == b[0] && Below(a[1..], b[1..]))))
  }

  lemma BelowReflexive(a: string)
    ensures Below(a, a)
  {
  }

  lemma BelowAntisymmetric(a: string, b: string)
    requires Below(a, b) && Below(b, a)
    ensures a == b
  {
  }

  lemma BelowTransitive(a: string, b: string, c: string)
    requires Below(a, b) && Below(b, c)
    ensures Below(a, c)
  {
  }

  lemma BelowTotal(a: string, b: string)
    ensures Below(a, b) || Below(b, a)
  {
  }

  predicate Sorted(s: seq<string>)
  {
    forall i, j :: 0 <= i < j < |s| ==> Below(s[i], s[j])
  }

  /** Inserts x into a sorted sequence, before the first element it sorts below. */
  function Insert(x: string, s: seq<string>): (r: seq<string>)
    requires Sorted(s)
    ensures Sorted(r)
    ensures multiset(r) == multiset(s) + multiset{x}
  {
    if |s| == 0 then [x]
    else if Below(x, s[0]) then
      assert forall j :: 0 <= j < |s| ==> Below(x, s[j]) by {
        forall j | 0 <= j < |s| ensures Below(x, s[j]) {
          if j > 0 { BelowTransitive(x, s[0], s[j]); }
        }
      }
      assert s == [s[0]] + s[1..];
      [x] + s
    else
      var t := Insert(x, s[1..]);
      HeadBelowInserted(x, s, t);
      assert s == [s[0]] + s[1..];
      [s[0]] + t
  }

  /** The head of s sorts below everything of t, which holds the rest of s and x. */
  lemma HeadBelowInserted(x: string, s: seq<string>, t: seq<string>)
    requires Sorted(s) && |s| > 0 && !Below(x, s[0])
    requires multiset(t) == multiset(s[1..]) + multiset{x}
    ensures forall j :: 0 <= j < |t| ==> Below(s[0], t[j])
  {
    BelowTotal(x, s[0]);
    forall j | 0 <= j < |t| ensures Below(s[0], t[j]) {
      assert t[j] in multiset(t);
      if t[j] != x {
        assert t[j] in multiset(s[1..]);
        var k :| 0 <= k < |s[1..]| && s[1..][k] == t[j];
        assert s[k + 1] == t[j];
      }
    }
  }

  /** Array#sort on strings: the sorted permutation of s. */
  function Sort(s: seq<string>): (r: seq<string>)
    ensures Sorted(r)
    ensures multiset(r) == multiset(s)
  {
    if |s| == 0 then []
    else
      assert s == s[..|s| - 1] + [s[|s| - 1]];
      Insert(s[|s| - 1], Sort(s[..|s| - 1]))
  }

  /** The head of a sorted sequence sorts no later than any of its elements. */
  lemma HeadIsLeast(s: seq<string>, x: string)
    requires Sorted(s) && x in multiset(s)
    ensures |s| > 0 && Below(s[0], x)
  {
    var i :| 0 <= i < |s| && s[i] == x;
    if i == 0 { BelowReflexive(x); }
  }

  /** A sorted sequence is determined by its elements: there is one sorted arrangement. */
  lemma {:induction false} SortedUnique(a: seq<string>, b: seq<string>)
    requires Sorted(a) && Sorted(b)
    requires multiset(a) == multiset(b)
    ensures a == b
  {
    if |a| == 0 {
      assert |multiset(b)| == 0;
    } else {
      assert a[0] in multiset(a);
      HeadIsLeast(b, a[0]);
      assert b[0] in multiset(b);
      HeadIsLeast(a, b[0]);
      BelowAntisymmetric(a[0], b[0]);
      SortedTail(a);
      SortedTail(b);
      MultisetTail(a);
      MultisetTail(b);
      SortedUnique(a[1..], b[1..]);
      SameHeadTail(a, b);
    }
  }

  lemma SortedTail(s: seq<string>)
    requires Sorted(s) && |s| > 0
    ensures Sorted(s[1..])
  {
    forall i, j | 0 <= i < j < |s[1..]| ensures Below(s[1..][i], s[1..][j]) {
      assert s[1..][i] == s[i + 1] && s[1..][j] == s[j + 1];
    }
  }

  /** Sorting forgets the order it was given: permutations sort to the same sequence. */
  lemma {:induction false} SortPermutation(a: seq<string>, b: seq<string>)
    requires multiset(a) == multiset(b)
    ensures Sort(a) == Sort(b)
  {
    SortedUnique(Sort(a), Sort(b));
  }

  /** A sequence that is already sorted is its own sort. */
  lemma {:induction false} SortSorted(a: seq<string>)
    requires Sorted(a)
    ensures Sort(a) == a
  {
    SortedUnique(Sort(a), a);
  }

  /** Array#join: the parts with sep between neighbours. */
  function Join(parts: seq<string>, sep: string): string
  {
    if |parts| == 0 then ""
    else if |parts| == 1 then parts[0]
    else parts[0] + sep + Join(parts[1..], sep)
  }

  /** The empty string sorts before everything, so it leads the sorted sequence. */
  lemma SortEmptyFirst(e: string, s: seq<string>)
    requires |e| == 0
    ensures Sort([e] + s) == [e] + Sort(s)
  {
    var t := Sort(s);
    var r := [e] + t;
    assert Sorted(r) by {
      forall i, j | 0 <= i < j < |r| ensures Below(r[i], r[j]) {
        if i > 0 {
          assert r[i] == t[i - 1] && r[j] == t[j - 1];
        }
      }
    }
    assert multiset(r) == multiset([e] + s);
    SortedUnique(Sort([e] + s), r);
  }

  /** An empty first part leaves the joined text starting with the separator. */
  lemma JoinEmptyFirst(e: string, s: seq<string>, sep: string)
    requires |e| == 0 && |s| > 0
    ensures Join([e] + s, sep) == sep + Join(s, sep)
  {
    assert ([e] + s)[1..] == s;
    assert e + sep == sep;
  }

  /** The fields of s between occurrences of c, before Ruby drops trailing empty ones:
      always one more field than there are separators. */
  function Fields(s: string, c: char): (r: seq<string>)
    ensures |r| >= 1
  {
    if |s| == 0 then [""]
    else if s[0] == c then [""] + Fields(s[1..], c)
    else
      var t := Fields(s[1..], c);
      [[s[0]] + t[0]] + t[1..]
  }

  function DropTrailingEmpty(fields: seq<string>): (r: seq<string>)
    ensures |r| <= |fields| && r == fields[..|r|]
    ensures |r| == 0 || r[|r| - 1] != ""
    ensures forall i :: |r| <= i < |fields| ==> fields[i] == ""
  {
    if |fields| > 0 && fields[|fields| - 1] == "" then DropTrailingEmpty(fields[..|fields| - 1])
    else fields
  }

  /** String#split with a one-character separator: the fields, trailing empty ones removed. */
  function Split(s: string, c: char): seq<string>
  {
    DropTrailingEmpty(Fields(s, c))
  }

  /** Splitting distributes over a separator occurrence. */
  lemma {:induction false} FieldsAppend(a: string, b: string, c: char)
    ensures Fields(a + [c] + b, c) == Fields(a, c) + Fields(b, c)
  {
    var s := a + [c] + b;
    if |a| == 0 {
      assert s[0] == c && s[1..] == b;
    } else {
      AppendTail(a, [c], b);
      FieldsAppend(a[1..], b, c);
      if a[0] != c {
        FieldsAppendStep(a, b, c, Fields(s[1..], c), Fields(a[1..], c));
      }
    }
  }

  lemma FieldsAppendStep(a: string, b: string, c: char, t: seq<string>, u: seq<string>)
    requires |a| > 0 && a[0] != c
    requires t == Fields(a[1..] + [c] + b, c) && u == Fields(a[1..], c)
    requires t == u + Fields(b, c)
    ensures Fields(a + [c] + b, c) == Fields(a, c) + Fields(b, c)
  {
    var s := a + [c] + b;
    AppendTail(a, [c], b);
    FieldsCons(s, c);
    FieldsCons(a, c);
    ConsAppend([a[0]], t, u, Fields(b, c));
  }

  /** The first field of a string that does not start with the separator. */
  lemma FieldsCons(s: string, c: char)
    requires |s| > 0 && s[0] != c
    ensures Fields(s, c) == [[s[0]] + Fields(s[1..], c)[0]] + Fields(s[1..], c)[1..]
  {
  }

  /** Prefixing the first part commutes with appending more parts. */
  lemma ConsAppend(x: string, t: seq<string>, u: seq<string>, v: seq<string>)
    requires |u| > 0 && t == u + v
    ensures [x + t[0]] + t[1..] == ([x + u[0]] + u[1..]) + v
  {
    assert t[0] == u[0];
    assert t[1..] == u[1..] + v;
  }

  /** A string without the separator is a single field. */
  lemma {:induction false} FieldsOfPlain(s: string, c: char)
    requires c !in s
    ensures Fields(s, c) == [s]
  {
    if |s| > 0 {
      FieldsOfPlain(s[1..], c);
      assert [s[0]] + s[1..] == s;
    }
  }

  /** Joining at least one separator-free part and splitting again gives the parts back. */
  lemma {:induction false} FieldsOfJoin(parts: seq<string>, c: char)
    requires |parts| >= 1
    requires forall i :: 0 <= i < |parts| ==> c !in parts[i]
    ensures Fields(Join(parts, [c]), c) == parts
  {
    if |parts| == 1 {
      FieldsOfPlain(parts[0], c);
    } else {
      FieldsOfJoin(parts[1..], c);
      FieldsAppend(parts[0], Join(parts[1..], [c]), c);
      FieldsOfPlain(parts[0], c);
      assert parts == [parts[0]] + parts[1..];
    }
  }

  /** The other direction: the fields of s, rejoined, are s. */
  lemma {:induction false} JoinOfFields(s: string, c: char)
    ensures Join(Fields(s, c), [c]) == s
  {
    if |s| > 0 {
      JoinOfFields(s[1..], c);
      var t := Fields(s[1..], c);
      if s[0] == c {
        assert Fields(s, c) == [""] + t;
        assert ([""] + t)[1..] == t;
      } else {
        assert Fields(s, c) == [[s[0]] + t[0]] + t[1..];
        if |t| > 1 {
          assert t == [t[0]] + t[1..];
          assert Join(t, [c]) == t[0] + [c] + Join(t[1..], [c]);
        }
      }
    }
  }

  /** String#split on a join of separator-free parts whose last part is not empty. */
  lemma {:induction false} SplitOfJoin(parts: seq<string>, c: char)
    requires forall i :: 0 <= i < |parts| ==> c !in parts[i]
    requires |parts| == 0 || parts[|parts| - 1] != ""
    ensures Split(Join(parts, [c]), c) == parts
  {
    if |parts| > 0 {
      FieldsOfJoin(parts, c);
    }
  }

  /** Fields with the separator fixed, as a function value. */
  function FieldsOn(c: char): string -> seq<string>
  {
    (p: string) => Fields(p, c)
  }

  /** The fields of a join are the fields of its parts, in order. */
  lemma {:induction false} FieldsOfJoinAll(parts: seq<string>, c: char)
    requires |parts| >= 1
    ensures Fields(Join(parts, [c]), c) == ConcatMap(FieldsOn(c), parts)
  {
    var f := FieldsOn(c);
    if |parts| == 1 {
      assert ConcatMap(f, parts) == f(parts[0]) + ConcatMap(f, []);
    } else {
      FieldsOfJoinAll(parts[1..], c);
      FieldsAppend(parts[0], Join(parts[1..], [c]), c);
    }
  }

  /** Nothing to drop when the last field is not empty. */
  lemma SplitKeepsFields(s: string, c: char)
    requires Fields(s, c)[|Fields(s, c)| - 1] != ""
    ensures Split(s, c) == Fields(s, c)
  {
  }

  /** The text of s before its first c; all of s when c does not occur. */
  function TakeUntil(s: string, c: char): (r: string)
    ensures |r| <= |s| && r == s[..|r|]
    ensures c !in r
    ensures |r| < |s| ==> s[|r|] == c
  {
    if |s| == 0 || s[0] == c then "" else [s[0]] + TakeUntil(s[1..], c)
  }

  /** The text of s after its first c; empty when c does not occur. */
  function AfterFirst(s: string, c: char): string
  {
    var t := TakeUntil(s, c);
    if |t| < |s| then s[|t| + 1..] else ""
  }

  /** Some character of s is not c. */
  predicate HasOther(s: string, c: char)
  {
    exists k :: 0 <= k < |s| && s[k] != c
  }

  /** The first field is the text before the first separator. */
  lemma {:induction false} FieldsHead(s: string, c: char)
    ensures Fields(s, c)[0] == TakeUntil(s, c)
  {
    if |s| > 0 && s[0] != c {
      FieldsHead(s[1..], c);
    }
  }

  /** Every field is empty exactly when s consists of separators only. */
  lemma {:induction false} FieldsAllEmpty(s: string, c: char)
    ensures (forall i :: 0 <= i < |Fields(s, c)| ==> Fields(s, c)[i] == "") <==> !HasOther(s, c)
  {
    if |s| > 0 {
      FieldsAllEmpty(s[1..], c);
      assert (forall i :: 0 <= i < |Fields(s[1..], c)| ==> Fields(s[1..], c)[i] == "") <==> !HasOther(s[1..], c);
      var t := Fields(s[1..], c);
      if s[0] == c {
        HasOtherTail(s, c);
        var f := Fields(s, c);
        assert f == [""] + t;
        if forall j :: 0 <= j < |t| ==> t[j] == "" {
          forall i | 0 <= i < |f|
            ensures f[i] == ""
          {
            if i > 0 {
              assert f[i] == t[i - 1];
            }
          }
        }
        if forall i :: 0 <= i < |f| ==> f[i] == "" {
          forall j | 0 <= j < |t|
            ensures t[j] == ""
          {
            assert t[j] == f[j + 1];
          }
        }
      } else {
        assert Fields(s, c)[0] == [s[0]] + t[0];
        assert s[0] != c;
      }
    }
  }

  lemma HasOtherTail(s: string, c: char)
    requires |s| > 0 && s[0] == c
    ensures HasOther(s, c) <==> HasOther(s[1..], c)
  {
    if HasOther(s[1..], c) {
      var k :| 0 <= k < |s[1..]| && s[1..][k] != c;
      assert s[k + 1] != c;
    }
    if HasOther(s, c) {
      var k :| 0 <= k < |s| && s[k] != c;
      assert s[1..][k - 1] != c;
    }
  }

  /** At the first separator, the fields are the text before it and the fields after it. */
  lemma FieldsAtFirst(s: string, c: char)
    requires c in s
    ensures Fields(s, c) == [TakeUntil(s, c)] + Fields(AfterFirst(s, c), c)
  {
    var t := TakeUntil(s, c);
    assert |t| < |s|;
    assert s == t + [c] + AfterFirst(s, c);
    FieldsAppend(t, AfterFirst(s, c), c);
    FieldsOfPlain(t, c);
  }

  /** String#split gives some part exactly when s holds more than separators, and the
      first part is then the text before the first separator. It gives a second part
      exactly when something other than separators follows the first separator, and the
      second part is then the text up to the next separator. */
  lemma SplitAtFirst(s: string, c: char)
    ensures |Split(s, c)| >= 1 <==> HasOther(s, c)
    ensures |Split(s, c)| >= 1 ==> Split(s, c)[0] == TakeUntil(s, c)
    ensures |Split(s, c)| >= 2 <==> HasOther(AfterFirst(s, c), c)
    ensures |Split(s, c)| >= 2 ==> Split(s, c)[1] == TakeUntil(AfterFirst(s, c), c)
  {
    SplitFirstPart(s, c);
    if c in s {
      SplitSecondPart(s, c);
    } else {
      FieldsOfPlain(s, c);
      assert |TakeUntil(s, c)| == |s|;
    }
  }

  lemma SplitFirstPart(s: string, c: char)
    ensures |Split(s, c)| >= 1 <==> HasOther(s, c)
    ensures |Split(s, c)| >= 1 ==> Split(s, c)[0] == TakeUntil(s, c)
  {
    var f := Fields(s, c);
    FieldsAllEmpty(s, c);
    FieldsHead(s, c);
    if HasOther(s, c) {
      var i :| 0 <= i < |f| && f[i] != "";
      assert |Split(s, c)| > i;
    }
  }

  lemma SplitSecondPart(s: string, c: char)
    requires c in s
    ensures |Split(s, c)| >= 2 <==> HasOther(AfterFirst(s, c), c)
    ensures |Split(s, c)| >= 2 ==> Split(s, c)[1] == TakeUntil(AfterFirst(s, c), c)
  {
    var f := Fields(s, c);
    var r := Split(s, c);
    var rest := Fields(AfterFirst(s, c), c);
    FieldsAtFirst(s, c);
    FieldsAllEmpty(AfterFirst(s, c), c);
    FieldsHead(AfterFirst(s, c), c);
    if HasOther(AfterFirst(s, c), c) {
      var i :| 0 <= i < |rest| && rest[i] != "";
      assert f[i + 1] == rest[i];
      assert |r| > i + 1;
    }
    if |r| >= 2 {
      assert r[|r| - 1] == rest[|r| - 2];
    }
  }

  /** The parts that are not empty, in order. */
  function DropEmpty(parts: seq<string>): (r: seq<string>)
    ensures forall x :: multiset(r)[x] == if x == "" then 0 else multiset(parts)[x]
  {
    if |parts| == 0 then []
    else
      assert parts == [parts[0]] + parts[1..];
      (if parts[0] == "" then [] else [parts[0]]) + DropEmpty(parts[1..])
  }

  lemma DropEmptySingle(s: string)
    requires s != ""
    ensures DropEmpty([s]) == [s]
  {
    assert [s][1..] == [];
  }

  lemma DropEmptyPermutation(a: seq<string>, b: seq<string>)
    requires multiset(a) == multiset(b)
    ensures multiset(DropEmpty(a)) == multiset(DropEmpty(b))
  {
    assert forall x :: multiset(DropEmpty(a))[x] == multiset(DropEmpty(b))[x];
  }

  lemma DropEmptyAppend(a: seq<string>, b: seq<string>)
    ensures multiset(DropEmpty(a + b)) == multiset(DropEmpty(a)) + multiset(DropEmpty(b))
  {
    assert forall x :: multiset(DropEmpty(a + b))[x] == (multiset(DropEmpty(a)) + multiset(DropEmpty(b)))[x];
  }
}

=== FILE: wrappers.dfy ===
/** Failure-carrying datatypes for the operations that raise in the library. */
module Wrappers {

  datatype Option<+T> = None | Some(value: T)

  /** The outcome of an operation that either produces a value or raises. */
  datatype Result<+R, +E> = Success(value: R) | Failure(error: E)
}
